=== FILE: README.md ===
# Polkadot testnet faucet: drip dispatcher model

This project is a Dafny model of the core of the Avail/Polkadot testnet faucet. The core is the
path a drip request takes from the request handler to the chain:

- `handleRequest` counts the request. It checks the captcha, but only for external requests. It then asks the quota store
  whether the requester has already dripped today and asks the chain whether the address is
  over the balance cap. It refuses with the first failing reason. Otherwise it calls `sendTokens`; on a success response it bumps the success counter
  and saves the quota key without waiting for the save.
- `sendTokens` refuses when the primary account is not loaded, or when the cached faucet
  balance does not exceed the amount. Otherwise it escalates through four tiers. Each tier runs
  only when the one before it threw:
  1. a transfer signed by the primary account with the automatic nonce;
  2. the same transfer signed by the backup account;
  3. the backup account again, with a nonce taken from one `accountNextIndex` query;
  4. the address goes into the Redis set `TransactionQueue`. Once the set holds more than 20
     members, 20 of them are sampled and removed, and one batch paying each of them is signed
     by the primary account.

  Whatever the tiers throw, the answer is `{hash: res}`, with `res` empty when nothing was
  accepted. The cached faucet balance is refreshed only after a success response.
- The balance helpers: whole-token conversion, the strict cap comparison, the cached snapshot and
  its refresh, and the balance read as text.
- The static network table with its single `avail` entry, and its lookup by name.
- The process-wide handler instance.

The model is purely functional.

- **Collaborators are data.** The chain, Redis, the captcha service and the quota store are
  inputs: `Actions.ChainOracle` and `Handler.Answers` hold each collaborator's answer for one
  call.
- **Effects are a trace.** Each operation returns the calls it made, in order, as a
  `seq<Types.Event>`. The properties are stated over that trace:
  - which tier runs, and in what order;
  - how often each call occurs;
  - what the retry set holds afterwards.
- **The success test is a parameter.** `isDripSuccessResponse` lives in a file outside this
  model. It becomes the flag `emptyHashIsSuccess`: `{hash: h}` is a success when `h` is
  non-empty, or always when the flag is set. Error responses are never successes.

Modules:

- `Wrappers`: `Option`, `Result`.
- `Text`: decimal text of naturals; `Array.join` and substring occurrence.
- `Types`: responses, quota keys, events.
- `Networks`: `networkData.ts`.
- `Escalation`: the ordering of submissions.
- `Actions`: `PolkadotActions.ts`.
- `Handler`: `DripRequestHandler.ts`.

## Model

| member | source | states |
|---|---|---|
| Networks.GetNetworkData | src/networkData.ts:32-41 | The lookup succeeds exactly when the name is a key of the network table, and then returns the record stored under that name. An unknown name gives an error whose text starts with "Unknown NETWORK" and contains the name and every valid key. |
| Networks.MessageListsNames | src/networkData.ts:33-36 | The "Unknown NETWORK" message contains the requested name and each key of the table, as joined with ", ". |
| Networks.OnlyAvailIsKnown | src/networkData.ts:30 | "avail" is the only name the lookup accepts. |
| Networks.AvailRecord | src/networkData.ts:19-28 | Looking up "avail" yields the avail record, whose balance cap is 100, decimals 18, currency "AVL" and drip amount "1". |
| Actions.GetAccountBalance | src/dripper/polkadot/PolkadotActions.ts:93-103 | The whole-token balance q satisfies q·10^decimals ≤ free < (q+1)·10^decimals, i.e. the free balance divided by 10^decimals rounded down. |
| Actions.OverCapIffBalanceReachesNextWholeToken | src/dripper/polkadot/PolkadotActions.ts:105-107 | Because the comparison is strict and the conversion rounds down, the whole-token balance exceeds the cap exactly when the raw free balance is at least (cap+1)·10^decimals. A balance of cap whole tokens plus a fraction is not over. |
| Actions.IsAccountOverBalanceCap | src/dripper/polkadot/PolkadotActions.ts:105-107 | An address is over the cap exactly when its raw free balance is at least (cap+1)·10^decimals. |
| Actions.UpdateFaucetBalance | src/dripper/polkadot/PolkadotActions.ts:73-87 | With no account, or an account with an empty address, nothing is queried and nothing changes. Otherwise the chain is queried once. A successful query replaces the cached balance; a failed one keeps the old value. Accounts and retry set are untouched. |
| Actions.SnapshotFollowsRefresh | src/dripper/polkadot/PolkadotActions.ts:73-91 | After a refresh the snapshot getter reads the fetched balance, if an account with an address is loaded and the query answered. Otherwise it reads the previous snapshot. |
| Actions.GetBalance | src/dripper/polkadot/PolkadotActions.ts:204-225 | With no account, or when the query throws, the answer is "0". Otherwise it is all digits with no leading zero, as `toString()` writes a number, and reads back as the queried free balance. |
| Text.ParseNatToString | src/dripper/polkadot/PolkadotActions.ts:220 | Reading back the decimal text of a natural gives the natural: the `toString()` of a balance loses nothing. |
| Actions.SendTokens | src/dripper/polkadot/PolkadotActions.ts:109-202 | With no account the answer is the "account not ready" error. When the cached balance is known and not above the amount, it is the insufficient-balance error. When the account is ready and the balance guard passes but reaching the node throws, the response is an error carrying that failure's message, or the generic sending error when the message is empty. The response is an error exactly in these three cases. An error makes no call and changes no state, and its text is never empty. The cached balance changes only after a success response. |
| Actions.ErrorText | src/dripper/polkadot/PolkadotActions.ts:189-190 | A caught error becomes its own message when that is non-empty, and the generic "An error occured when sending tokens" when it is empty. |
| Actions.SendTokensRunsTiers | src/dripper/polkadot/PolkadotActions.ts:134-199 | Past the guards the response is `{hash: res}` from the tiers and the retry set is the tiers' result. On a success response the balance refresh runs on that state: its calls follow the tiers' calls, and its snapshot is the final state. On any other response nothing follows the tiers and the snapshot is left alone. |
| Actions.RefreshExactlyOnSuccess | src/dripper/polkadot/PolkadotActions.ts:197-199 | With a loaded account, the balance query is made exactly once after a success response and never otherwise. After a success the snapshot holds the fetched balance when the query answers. After a non-success it is unchanged. |
| Actions.ConstructedRefuses | src/dripper/polkadot/PolkadotActions.ts:109-116 | A freshly constructed dispatcher has no balance snapshot and reads its balance as "0". Its refresh does nothing. `sendTokens` answers "account not ready" without making any call. |
| Actions.SendTokensNeverThrowsPastGuards | src/dripper/polkadot/PolkadotActions.ts:136-188 | Past the guards nothing a tier throws escapes. The response is `{hash}` carrying the hash of the last submission when it was accepted, else "". The submissions start with the primary account's Tier 1 transfer and climb the tiers strictly, with only the last one possibly accepted. |
| Actions.EscalationOrder | src/dripper/polkadot/PolkadotActions.ts:136-185 | For any answers from the chain, the submissions start with Tier 1 and climb the tiers. Every submission but the last was rejected. The result hash is the last submission's when accepted, else "". |
| Actions.EscalateTriesEachTier | src/dripper/polkadot/PolkadotActions.ts:136-185 | Each tier runs exactly when it should: Tier 1 always; Tier 2 exactly when Tier 1 threw with a backup account loaded and reachable; Tier 3 exactly when Tier 2 threw too and the nonce query answered; the batch exactly when the call reaches Tier 4 with more than 20 members queued. The submissions are those, in tier order, and the hash is the first accepted one's, else "". |
| Actions.SendTokensAnswersFirstAcceptedTier | src/dripper/polkadot/PolkadotActions.ts:134-188 | Past the guards, the submissions `sendTokens` makes are exactly those of the tiers tried, in tier order. The answer is `{hash}` with the first accepted submission's hash, or "" when none was accepted. |
| Escalation.FirstAcceptedIsLast | src/dripper/polkadot/PolkadotActions.ts:136-185 | On a run of submissions that climbs the tiers, the first accepted submission's hash equals the last submission's hash when that one was accepted (else ""). |
| Actions.Escalate | src/dripper/polkadot/PolkadotActions.ts:136-185 | Tier 1 is always the first call, and an accepted Tier 1 ends everything with its hash and the retry set untouched. When Tier 2 is not tried, Tier 1 is the only call; if Tier 1 threw, the hash is then "". When Tier 2 is tried, it is the second call. |
| Actions.BackupTiers | src/dripper/polkadot/PolkadotActions.ts:145-156 | The backup tiers start with the backup account's Tier 2 transfer. An accepted Tier 2 ends everything with its hash and the retry set untouched. A rejected one is followed by the nonce query. |
| Actions.NonceTier | src/dripper/polkadot/PolkadotActions.ts:151-178 | With a nonce, Tier 3 submits with exactly that nonce first, and an accepted Tier 3 ends everything with its hash and the set untouched. Without a nonce, the address goes straight to the retry set. |
| Actions.SecondTierSucceeds | src/dripper/polkadot/PolkadotActions.ts:139-148 | When Tier 1 throws and Tier 2 is accepted, the answer is Tier 2's hash. The submissions are exactly primary/auto then backup/auto. No nonce is queried and the retry set is unchanged. |
| Escalation.AtMostOneTierSucceeds | src/dripper/polkadot/PolkadotActions.ts:136-185 | A submission run that starts at Tier 1 and climbs has at most four submissions (one per tier), and only the last can be accepted. |
| Actions.NoBackupMeansNoFallback | src/dripper/polkadot/PolkadotActions.ts:142 | Without a backup account, a failed Tier 1 ends the attempt: the answer is `{hash: ""}`, the only submission is Tier 1's, and there is no nonce query and no queueing. |
| Actions.NonceQueriedOnlyAfterTwoFailures | src/dripper/polkadot/PolkadotActions.ts:149-156 | The backup account's next nonce is queried exactly once when Tier 1 and Tier 2 both threw with a reachable backup account, and never otherwise. |
| Actions.ThirdTierSucceeds | src/dripper/polkadot/PolkadotActions.ts:151-156 | When Tiers 1 and 2 throw and Tier 3 is accepted, the response carries Tier 3's hash. There is exactly one nonce query and the retry set is unchanged. The submissions are exactly primary/auto, backup/auto, backup/queried nonce. |
| Actions.QueuedOnlyAtTierFour | src/dripper/polkadot/PolkadotActions.ts:157-161 | The address is added to the retry set exactly once when Tiers 1–3 all fail with a reachable backup account, and never otherwise. Short of Tier 4 the retry set is unchanged. |
| Actions.QueueTier | src/dripper/polkadot/PolkadotActions.ts:159-175 | Tier 4 adds the address first. While the set then holds at most 20 members, nothing is submitted, the set is the old set plus the address, and the hash is empty. |
| Actions.QueueTierEvents | src/dripper/polkadot/PolkadotActions.ts:159-175 | Tier 4 issues only Redis set commands and the batch submission. It adds no address other than the requested one, first. |
| Actions.QueueTierDrains | src/dripper/polkadot/PolkadotActions.ts:165-172 | Once the set holds more than 20 members and SRANDMEMBER returns 20 distinct members, exactly those 20 leave the set, possibly including the requester. The set shrinks by exactly 20, whatever the batch answers. |
| Actions.QueueTierBatches | src/dripper/polkadot/PolkadotActions.ts:165-175 | Above 20 members, every sampled member is removed before the one batch is submitted. The batch is the only submission of the tier, is signed by the primary account with the automatic nonce, and pays each sampled member the current amount. The hash is the batch's when accepted. |
| Actions.DrainBatchFacts | src/dripper/polkadot/PolkadotActions.ts:166-174 | The batch step removes the sampled members from the set, with every removal before the batch submission. |
| Actions.QueueTierRemovesBeforeBatch | src/dripper/polkadot/PolkadotActions.ts:165-175 | Above 20 members, Tier 4 submits the batch for the sample, signed by the primary account with the automatic nonce, after removing every sampled member from the set. |
| Actions.EscalateKeepsQueueTierSet | src/dripper/polkadot/PolkadotActions.ts:136-175 | When Tiers 2 and 3 both fail, or Tier 2 fails and no nonce is known, the retry set after the whole escalation is the one Tier 4 leaves. Tiers 1–3 never touch it. |
| Actions.EscalateRemovesBeforeBatch | src/dripper/polkadot/PolkadotActions.ts:136-175 | When the escalation reaches Tier 4 with more than 20 members queued, its trace holds the batch submission, and every sampled member is removed before it. |
| Actions.SendTokensDrainsQueue | src/dripper/polkadot/PolkadotActions.ts:109-202 | When `sendTokens` gets past its guards and reaches Tier 4, its retry set is the one Tier 4 leaves. With more than 20 members queued, every sampled member is removed before the batch is submitted, and the balance refresh does not change that order. When the sample is 20 distinct queued members, exactly those leave the set, which shrinks by 20. |
| Actions.EscalateQueuesWithoutBatch | src/dripper/polkadot/PolkadotActions.ts:157-165 | When Tiers 1–3 fail and the set holds at most 20 members with the address in, the address waits in the set and the hash is empty. The only submissions are the single transfers of Tiers 1–3. |
| Actions.TwentyQueuedIsNotABatch | src/dripper/polkadot/PolkadotActions.ts:165 | The threshold is strict: with exactly 20 members after the add, `sendTokens` queues the address once, builds no batch and answers `{hash: ""}`. |
| Actions.SendTokensCallsOnlyTheDispatcher | src/dripper/polkadot/PolkadotActions.ts:109-202 | Every call `sendTokens` makes is one of its own: a submission, a nonce query, a retry-set command or the balance refresh. |
| Handler.QuotaKeyOf | src/dripper/DripRequestHandler.ts:26 | The quota key carries the request's address. It is the address-only key exactly for external requests; an internal request's key carries its sender as the username. |
| Handler.SameQuotaBucket | src/dripper/DripRequestHandler.ts:26 | Two requests share a quota bucket exactly when they name the same address and are both external, or both internal for the same sender. |
| Handler.HandleRequest | src/dripper/DripRequestHandler.ts:16-46 | Every request starts by bumping the request counter. A quota key is recorded only after a success response, and it is the request's own key. An error response leaves the signing accounts as they were. |
| Handler.Census | src/dripper/DripRequestHandler.ts:22-41 | Exact count of each of the handler's own calls in a request: the counter once; the captcha once if external; the quota and balance queries once each if the captcha passed; `sendTokens` once if both checks passed; the success counter and the quota save once each on success. |
| Handler.TotalRequestsCountedOnce | src/dripper/DripRequestHandler.ts:22 | Every request bumps the request counter exactly once, whatever its outcome. |
| Handler.CaptchaGate | src/dripper/DripRequestHandler.ts:24-25 | An external request with a failing captcha gets the captcha error after just the counter and the captcha call. Nothing else is asked and nothing is recorded. |
| Handler.InternalSkipsCaptcha | src/dripper/DripRequestHandler.ts:24 | An internal request never calls the captcha service. |
| Handler.BothChecksRun | src/dripper/DripRequestHandler.ts:26-27 | Once the captcha passes, the quota store and then the chain are both asked, right after the opening calls, before either answer is used. |
| Handler.RefusalsSendNothing | src/dripper/DripRequestHandler.ts:29-32 | A request that already dripped today gets the quota error, whatever its balance. Otherwise one over the cap gets the cap error. Either way `sendTokens` is not called, the state is untouched and nothing is recorded. |
| Handler.SendsExactlyOnce | src/dripper/DripRequestHandler.ts:34-44 | When both checks pass, `sendTokens` is called once with the request's address and amount. Its response and resulting state are the handler's. |
| Handler.HandlerSubmitsOnlyThroughSendTokens | src/dripper/DripRequestHandler.ts:19-44 | The handler's chain submissions are exactly those of its `sendTokens` call, in the same order. A request refused at the captcha, the quota or the cap submits nothing. |
| Handler.BookkeepingAfterSend | src/dripper/DripRequestHandler.ts:34-41 | On the sending path, the `sendTokens` call comes right after the checks, and its own calls follow it directly. After a success response, the success counter and then the quota save are the last two calls. Otherwise the request ends with `sendTokens`' calls. |
| Handler.BookkeepingOnlyOnSuccess | src/dripper/DripRequestHandler.ts:37-41 | The response is a success exactly when the sending path's `sendTokens` answered with one. The success counter and the save of the checked key occur once then, and never otherwise. The key is stored exactly when, in addition, the save went through. |
| Handler.SaveDripFailureIsInvisible | src/dripper/DripRequestHandler.ts:39-41 | A failing fire-and-forget save changes neither the response, the state nor the calls made. Only the stored key is missing. |
| Handler.SecondDripSameDayRefused | src/dripper/DripRequestHandler.ts:26-30 | After a request whose drip was saved, a second request with the same quota key is refused before `sendTokens`, with the quota error (or the captcha error), when the store answers from what it holds. |
| Handler.GetDripRequestHandlerInstance | src/dripper/DripRequestHandler.ts:49-56 | The returned handler is what the slot holds afterwards. A filled slot's handler is returned unchanged; an empty slot gets a new handler built on the given actions and the new captcha service. |
| Handler.InstanceIsStable | src/dripper/DripRequestHandler.ts:49-56 | After the first call, any sequence of later calls, with any arguments, returns the same handler and leaves the slot unchanged. |

## Left out

- Redis connection management is not modelled: the `client.connect()` before the `try`, and the `client.disconnect()` after the tiers. A `connect` failure would make `sendTokens` reject instead of answering; the model assumes the connection succeeds. On the error path the `catch` is reached before `client.disconnect()` (PolkadotActions.ts:186), so the client stays open, and the next call's `client.connect()` (line 110) meets an open connection. `SendTokens` changing no state on error covers the faucet record only, not this connection.
- The 20-second pause after the tiers and the `rpcTimeout` watchdog are not modelled: they affect timing only.
- The constructor is not modelled: key loading from mnemonics, `waitReady`, the 60-second balance poll loop and the ready promise. A `Faucet` starts from `Actions.Constructed` (no accounts, no balance) or from any state with accounts loaded.
- Connecting to the node (`getApiInstance`, `isReady`) and building the transfer before Tier 1 are collapsed into one oracle answer, `apiError`. When it is set, `sendTokens` answers with its message, or the generic message when the message is empty.
- When reconnecting for the backup tiers throws, the failure is swallowed and the answer is `{hash: ""}`. This is modelled as `backupApiReady`.
- Actions.GetAccountBalance: `BN.toNumber()` throws above 2^53 whole tokens; the model returns the exact quotient, unbounded.
- Actions.InsufficientBalanceMessage: the source formats both amounts with a `formatAmount` helper that is not part of this model. The message uses plain decimal text in its place.
- Logging and metrics are not real effects: the counters appear only as trace events, and log lines are not modelled.
- Concurrency is not modelled. Two simultaneous requests for the same key can both pass `hasDrippedToday` before either `saveDrip` lands, and two `sendTokens` calls can interleave on the Redis set. Each call is modelled in isolation.
- Redis command failures are not modelled, and the model assumes these commands succeed. Only the batch submission's answer is an input. In the source:
  - `SADD` at line 161 is not awaited, so its rejection escapes the surrounding `try`. It surfaces as an unhandled promise rejection, not as a failed tier.
  - `SCARD`, `SRANDMEMBER` or `SREM` can throw part-way through a batch; the catch at line 176 swallows that failure, after some members have already been removed.
- Handler.HandleRequest: the model assumes `hasDrippedToday`, the captcha service and the balance query answer rather than throw. In the source, a throw there makes `handleRequest` reject. The answers are inputs (`Handler.Answers`), and what counts as "today" is the quota store's business.
- `isDripSuccessResponse` (src/guards) is not part of this model. It is the parameter `emptyHashIsSuccess`.
- `JSON.stringify`/`JSON.parse` around retry-set members undo each other, so members are modelled as the addresses themselves.
- polkadotApi.ts and redisClient.ts (connection singletons) are not part of this model.
- Handler.GetDripRequestHandlerInstance: object identity is modelled by natural-number identities. The new `Recaptcha` service is an input.
- Parachain validation and a privileged-sender bypass do not appear in the modelled sources and are not modelled.

=== FILE: drip_request_handler.dfy ===
/** `DripRequestHandler`: the validation chain in front of `sendTokens` (captcha for external
    requests, the daily quota, the balance cap), the quota key a request is bucketed by, the
    bookkeeping after a successful drip, and the process-wide handler instance. */
module Handler {
  import opened Wrappers
  import opened Types
  import opened Escalation
  import Actions
  import Networks

  const CaptchaFailed: string := "Captcha validation was unsuccessful"
  const QuotaReached: string := "Requester has reached their daily quota. Only request once per day."
  const OverBalanceCap: string := "Requester's balance is over the faucet's balance cap"

  /** An external request carries a captcha token; an internal one (made by a bot on behalf of
      a chat user) names that user instead. */
  datatype DripRequest =
    | External(address: string, amount: int, recaptcha: string)
    | Internal(address: string, amount: int, sender: string)

  /** The answers of the collaborators during one request: the captcha service, the quota
      store (`hasDrippedToday`, and whether the fire-and-forget `saveDrip` later succeeds), the
      chain's raw free balance of the requesting address, and everything `sendTokens` meets. */
  datatype Answers = Answers(
    captchaValid: bool,
    drippedToday: bool,
    addressFree: nat,
    saveDripSucceeds: bool,
    chain: Actions.ChainOracle)

  /** The response, the dispatcher state afterwards, the calls made in order, and the quota key
      the store holds afterwards because of this request, if any. */
  datatype HandleOutcome = HandleOutcome(
    response: DripResponse,
    faucet: Actions.Faucet,
    trace: seq<Event>,
    recorded: Option<QuotaKey>)

  /** The key both `hasDrippedToday` and `saveDrip` are called with. */
  function QuotaKeyOf(req: DripRequest): (k: QuotaKey)
    ensures k.addr == req.address
    ensures k.AddressKey? <==> req.External?
    ensures req.Internal? ==> k.username == req.sender
  {
    match req
    case External(address, _, _) => AddressKey(address)
    case Internal(address, _, sender) => SenderAddressKey(sender, address)
  }

  /** Two requests share a quota bucket exactly when they are for the same address and are
      both external, or both internal on behalf of the same user: an internal request never
      uses up an external requester's quota for that address, nor the other way round. */
  lemma SameQuotaBucket(r1: DripRequest, r2: DripRequest)
    ensures QuotaKeyOf(r1) == QuotaKeyOf(r2) <==>
      && r1.address == r2.address
      && (r1.External? <==> r2.External?)
      && (r1.Internal? && r2.Internal? ==> r1.sender == r2.sender)
  {
  }

  /** The calls made before the quota and cap checks: the request counter, then the captcha
      for an external request. */
  function Opening(req: DripRequest): (t: seq<Event>)
  {
    [TotalRequestsInc] + (if req.External? then [CaptchaValidate(req.recaptcha)] else [])
  }

  /** Whether the captcha lets the request through: internal requests are not checked. */
  predicate CaptchaPasses(req: DripRequest, a: Answers) {
    req.Internal? || a.captchaValid
  }

  /** Whether a request that passed the captcha also passes both checks. */
  predicate ChecksPass(req: DripRequest, a: Answers, net: Networks.NetworkData) {
    !a.drippedToday && !Actions.IsAccountOverBalanceCap(a.addressFree, net)
  }

  /** `handleRequest`. Both checks are made before either answer is looked at; the quota
      answer wins over the cap answer; `sendTokens`'s response is returned as it is; a success
      response is counted and its quota key saved without waiting for the save. */
  function HandleRequest(f: Actions.Faucet, req: DripRequest, a: Answers,
                         net: Networks.NetworkData, emptyHashIsSuccess: bool): (out: HandleOutcome)
    ensures |out.trace| >= 1 && out.trace[0] == TotalRequestsInc
    ensures out.recorded.Some? ==> out.recorded == Some(QuotaKeyOf(req)) && IsSuccess(out.response, emptyHashIsSuccess)
    ensures out.response.Error? ==> out.faucet.account == f.account
  {
    var key := QuotaKeyOf(req);
    if !CaptchaPasses(req, a) then
      HandleOutcome(Error(CaptchaFailed), f, Opening(req), None)
    else
      var checked := Opening(req) + [HasDrippedToday(key), AccountQuery(req.address)];
      if a.drippedToday then HandleOutcome(Error(QuotaReached), f, checked, None)
      else if Actions.IsAccountOverBalanceCap(a.addressFree, net) then
        HandleOutcome(Error(OverBalanceCap), f, checked, None)
      else
        var sent := Actions.SendTokens(f, req.address, req.amount, a.chain, net, emptyHashIsSuccess);
        var success := IsSuccess(sent.response, emptyHashIsSuccess);
        var bookkeeping := if success then [SuccessfulRequestsInc, SaveDrip(key)] else [];
        HandleOutcome(sent.response, sent.faucet,
          checked + ([SendTokensCall(req.address, req.amount)] + (sent.trace + bookkeeping)),
          if success && a.saveDripSucceeds then Some(key) else None)
  }

  // ---------------------------------------------------------------------------------------
  // Which of the handler's own calls a request makes

  function Ind(b: bool): (n: nat)
    ensures n <= 1 && (n == 1 <==> b)
  {
    if b then 1 else 0
  }

  /** Whether `sendTokens` is called: the captcha and both checks passed. */
  predicate Sends(req: DripRequest, a: Answers, net: Networks.NetworkData) {
    CaptchaPasses(req, a) && ChecksPass(req, a, net)
  }

  /** Whether the handler ends with a success response from `sendTokens`. */
  predicate Succeeds(f: Actions.Faucet, req: DripRequest, a: Answers, net: Networks.NetworkData,
                     emptyHashIsSuccess: bool) {
    && Sends(req, a, net)
    && IsSuccess(Actions.SendTokens(f, req.address, req.amount, a.chain, net, emptyHashIsSuccess).response,
                 emptyHashIsSuccess)
  }

  lemma OpeningCount(req: DripRequest, x: Event)
    ensures CountOf(Opening(req), x)
         == Ind(x == TotalRequestsInc) + Ind(req.External? && x == CaptchaValidate(req.recaptcha))
  {
    var captcha := if req.External? then [CaptchaValidate(req.recaptcha)] else [];
    CountOfCons(TotalRequestsInc, captcha, x);
    if req.External? {
      CountOfCons(CaptchaValidate(req.recaptcha), [], x);
    }
  }

  lemma CheckedCount(req: DripRequest, x: Event)
    ensures CountOf(Opening(req) + [HasDrippedToday(QuotaKeyOf(req)), AccountQuery(req.address)], x)
         == Ind(x == TotalRequestsInc) + Ind(req.External? && x == CaptchaValidate(req.recaptcha))
            + Ind(x == HasDrippedToday(QuotaKeyOf(req))) + Ind(x == AccountQuery(req.address))
  {
    var checks := [HasDrippedToday(QuotaKeyOf(req)), AccountQuery(req.address)];
    OpeningCount(req, x);
    CountOfAppend(Opening(req), checks, x);
    CountOfCons(HasDrippedToday(QuotaKeyOf(req)), [AccountQuery(req.address)], x);
    CountOfCons(AccountQuery(req.address), [], x);
  }

  lemma BookkeepingCount(key: QuotaKey, success: bool, x: Event)
    ensures CountOf(if success then [SuccessfulRequestsInc, SaveDrip(key)] else [], x)
         == Ind(success && x == SuccessfulRequestsInc) + Ind(success && x == SaveDrip(key))
  {
    CountOfCons(SuccessfulRequestsInc, [SaveDrip(key)], x);
    CountOfCons(SaveDrip(key), [], x);
  }

  /** On the sending path, the calls `sendTokens` never makes occur as often in the whole trace
      as in the opening, the checks, the single `sendTokens` call and the bookkeeping. */
  lemma SendingPathCount(f: Actions.Faucet, req: DripRequest, a: Answers,
                         net: Networks.NetworkData, emptyHashIsSuccess: bool, x: Event)
    requires Sends(req, a, net) && !Actions.FromDispatcher(x)
    ensures var success := Succeeds(f, req, a, net, emptyHashIsSuccess);
      CountOf(HandleRequest(f, req, a, net, emptyHashIsSuccess).trace, x)
        == CountOf(Opening(req) + [HasDrippedToday(QuotaKeyOf(req)), AccountQuery(req.address)], x)
           + Ind(x == SendTokensCall(req.address, req.amount))
           + CountOf(if success then [SuccessfulRequestsInc, SaveDrip(QuotaKeyOf(req))] else [], x)
  {
    var key := QuotaKeyOf(req);
    var sent := Actions.SendTokens(f, req.address, req.amount, a.chain, net, emptyHashIsSuccess);
    var bookkeeping := if IsSuccess(sent.response, emptyHashIsSuccess) then [SuccessfulRequestsInc, SaveDrip(key)] else [];
    var checked := Opening(req) + [HasDrippedToday(key), AccountQuery(req.address)];
    var sending := [SendTokensCall(req.address, req.amount)] + (sent.trace + bookkeeping);
    assert HandleRequest(f, req, a, net, emptyHashIsSuccess).trace == checked + sending;
    Actions.SendTokensCallsOnlyTheDispatcher(f, req.address, req.amount, a.chain, net, emptyHashIsSuccess);
    CountOfAbsent(sent.trace, x);
    CountOfAppend(sent.trace, bookkeeping, x);
    CountOfCons(SendTokensCall(req.address, req.amount), sent.trace + bookkeeping, x);
    CountOfAppend(checked, sending, x);
  }

  /** How often each of the handler's own calls occurs in a request's trace: the request
      counter always once; the captcha once for an external request; the quota and balance
      queries once each when the captcha passes; `sendTokens` once when both checks pass too;
      the success counter and the quota save once each when it answers with a success. */
  lemma Census(f: Actions.Faucet, req: DripRequest, a: Answers,
               net: Networks.NetworkData, emptyHashIsSuccess: bool, x: Event)
    requires !Actions.FromDispatcher(x)
    ensures var success := Succeeds(f, req, a, net, emptyHashIsSuccess);
      CountOf(HandleRequest(f, req, a, net, emptyHashIsSuccess).trace, x)
        == Ind(x == TotalRequestsInc)
           + Ind(req.External? && x == CaptchaValidate(req.recaptcha))
           + Ind(CaptchaPasses(req, a) && x == HasDrippedToday(QuotaKeyOf(req)))
           + Ind(CaptchaPasses(req, a) && x == AccountQuery(req.address))
           + Ind(Sends(req, a, net) && x == SendTokensCall(req.address, req.amount))
           + Ind(success && x == SuccessfulRequestsInc)
           + Ind(success && x == SaveDrip(QuotaKeyOf(req)))
  {
    if !CaptchaPasses(req, a) {
      OpeningCount(req, x);
    } else {
      CheckedCount(req, x);
      if Sends(req, a, net) {
        SendingPathCount(f, req, a, net, emptyHashIsSuccess, x);
        BookkeepingCount(QuotaKeyOf(req), Succeeds(f, req, a, net, emptyHashIsSuccess), x);
      }
    }
  }

  // ---------------------------------------------------------------------------------------
  // Properties of handleRequest

  /** Every request is counted exactly once, whatever happens to it. */
  lemma TotalRequestsCountedOnce(f: Actions.Faucet, req: DripRequest, a: Answers,
                                 net: Networks.NetworkData, emptyHashIsSuccess: bool)
    ensures CountOf(HandleRequest(f, req, a, net, emptyHashIsSuccess).trace, TotalRequestsInc) == 1
  {
    Census(f, req, a, net, emptyHashIsSuccess, TotalRequestsInc);
  }

  /** An external request whose captcha fails is refused with the captcha error after the
      captcha call alone: no quota, balance or send call, nothing recorded. */
  lemma CaptchaGate(f: Actions.Faucet, req: DripRequest, a: Answers,
                    net: Networks.NetworkData, emptyHashIsSuccess: bool)
    requires req.External? && !a.captchaValid
    ensures HandleRequest(f, req, a, net, emptyHashIsSuccess)
         == HandleOutcome(Error(CaptchaFailed), f, [TotalRequestsInc, CaptchaValidate(req.recaptcha)], None)
  {
  }

  /** An internal request never consults the captcha service, whatever the answers. */
  lemma InternalSkipsCaptcha(f: Actions.Faucet, req: DripRequest, a: Answers,
                             net: Networks.NetworkData, emptyHashIsSuccess: bool, token: string)
    requires req.Internal?
    ensures CountOf(HandleRequest(f, req, a, net, emptyHashIsSuccess).trace, CaptchaValidate(token)) == 0
  {
    Census(f, req, a, net, emptyHashIsSuccess, CaptchaValidate(token));
  }

  /** Once the captcha passes, the quota store and the chain are both asked, in that order and
      right after the opening calls, whatever either of them answers. */
  lemma BothChecksRun(f: Actions.Faucet, req: DripRequest, a: Answers,
                      net: Networks.NetworkData, emptyHashIsSuccess: bool)
    requires CaptchaPasses(req, a)
    ensures var out := HandleRequest(f, req, a, net, emptyHashIsSuccess);
      var n := |Opening(req)|;
      && |out.trace| >= n + 2
      && out.trace[..n] == Opening(req)
      && out.trace[n] == HasDrippedToday(QuotaKeyOf(req))
      && out.trace[n + 1] == AccountQuery(req.address)
  {
    var out := HandleRequest(f, req, a, net, emptyHashIsSuccess);
    var checked := Opening(req) + [HasDrippedToday(QuotaKeyOf(req)), AccountQuery(req.address)];
    var rest := out.trace[|checked|..];
    assert out.trace == checked + rest by {
      if ChecksPass(req, a, net) {
        var sent := Actions.SendTokens(f, req.address, req.amount, a.chain, net, emptyHashIsSuccess);
        var bookkeeping := if IsSuccess(sent.response, emptyHashIsSuccess)
                           then [SuccessfulRequestsInc, SaveDrip(QuotaKeyOf(req))] else [];
        assert out.trace == checked + ([SendTokensCall(req.address, req.amount)] + (sent.trace + bookkeeping));
      } else {
        assert out.trace == checked;
      }
    }
  }

  /** A request that already dripped today is refused with the quota error, whatever its
      balance; otherwise one over the balance cap is refused with the cap error. Either way
      `sendTokens` is not called, the dispatcher state is untouched and nothing is recorded. */
  lemma RefusalsSendNothing(f: Actions.Faucet, req: DripRequest, a: Answers,
                            net: Networks.NetworkData, emptyHashIsSuccess: bool)
    requires CaptchaPasses(req, a) && !ChecksPass(req, a, net)
    ensures var out := HandleRequest(f, req, a, net, emptyHashIsSuccess);
      && out.response == Error(if a.drippedToday then QuotaReached else OverBalanceCap)
      && out.faucet == f
      && out.recorded.None?
      && out.trace == Opening(req) + [HasDrippedToday(QuotaKeyOf(req)), AccountQuery(req.address)]
      && CountOf(out.trace, SendTokensCall(req.address, req.amount)) == 0
  {
    Census(f, req, a, net, emptyHashIsSuccess, SendTokensCall(req.address, req.amount));
  }

  /** When both checks pass, `sendTokens` is called once with exactly the request's address
      and amount, and its response and state are what the handler ends with. */
  lemma SendsExactlyOnce(f: Actions.Faucet, req: DripRequest, a: Answers,
                         net: Networks.NetworkData, emptyHashIsSuccess: bool)
    requires Sends(req, a, net)
    ensures var out := HandleRequest(f, req, a, net, emptyHashIsSuccess);
      var sent := Actions.SendTokens(f, req.address, req.amount, a.chain, net, emptyHashIsSuccess);
      && out.response == sent.response
      && out.faucet == sent.faucet
      && CountOf(out.trace, SendTokensCall(req.address, req.amount)) == 1
  {
    Census(f, req, a, net, emptyHashIsSuccess, SendTokensCall(req.address, req.amount));
  }

  /** The handler submits to the chain exactly what `sendTokens` submits, in the same order,
      and nothing at all when it does not call `sendTokens`. */
  lemma HandlerSubmitsOnlyThroughSendTokens(f: Actions.Faucet, req: DripRequest, a: Answers,
                                            net: Networks.NetworkData, emptyHashIsSuccess: bool)
    ensures var out := HandleRequest(f, req, a, net, emptyHashIsSuccess);
      var sent := Actions.SendTokens(f, req.address, req.amount, a.chain, net, emptyHashIsSuccess);
      Submissions(out.trace) == (if Sends(req, a, net) then Submissions(sent.trace) else [])
  {
    var key := QuotaKeyOf(req);
    SubmissionsNone(Opening(req));
    if CaptchaPasses(req, a) {
      var checked := Opening(req) + [HasDrippedToday(key), AccountQuery(req.address)];
      SubmissionsNone(checked);
      if ChecksPass(req, a, net) {
        var sent := Actions.SendTokens(f, req.address, req.amount, a.chain, net, emptyHashIsSuccess);
        var bookkeeping := if IsSuccess(sent.response, emptyHashIsSuccess)
                           then [SuccessfulRequestsInc, SaveDrip(key)] else [];
        SubmissionsNone(bookkeeping);
        SubmissionsAppend(sent.trace, bookkeeping);
        SubmissionsCons(SendTokensCall(req.address, req.amount), sent.trace + bookkeeping);
        SubmissionsAppend(checked, [SendTokensCall(req.address, req.amount)] + (sent.trace + bookkeeping));
      }
    }
  }

  /** Where the parts of the sending path's trace sit. */
  lemma SendingLayout(checked: seq<Event>, call: Event, sent: seq<Event>, bookkeeping: seq<Event>)
    ensures var t := checked + ([call] + (sent + bookkeeping));
      var i := |checked|;
      && |t| == i + 1 + |sent| + |bookkeeping|
      && t[i] == call
      && t[i + 1..i + 1 + |sent|] == sent
      && t[i + 1 + |sent|..] == bookkeeping
  {
    var t := checked + ([call] + (sent + bookkeeping));
    var i := |checked|;
    assert t[i + 1..i + 1 + |sent|] == sent;
    assert t[i + 1 + |sent|..] == bookkeeping;
  }

  /** On the sending path, the `sendTokens` call follows the checks, the calls it makes follow
      it directly, and the request ends there, except that a success response is then counted
      and its quota key saved, as the last two calls. */
  lemma BookkeepingAfterSend(f: Actions.Faucet, req: DripRequest, a: Answers,
                             net: Networks.NetworkData, emptyHashIsSuccess: bool)
    requires Sends(req, a, net)
    ensures var out := HandleRequest(f, req, a, net, emptyHashIsSuccess);
      var sent := Actions.SendTokens(f, req.address, req.amount, a.chain, net, emptyHashIsSuccess);
      var i := |Opening(req)| + 2;
      var success := IsSuccess(sent.response, emptyHashIsSuccess);
      && |out.trace| == i + 1 + |sent.trace| + (if success then 2 else 0)
      && out.trace[i] == SendTokensCall(req.address, req.amount)
      && out.trace[i + 1..i + 1 + |sent.trace|] == sent.trace
      && (success ==> out.trace[|out.trace| - 2..] == [SuccessfulRequestsInc, SaveDrip(QuotaKeyOf(req))])
  {
    var key := QuotaKeyOf(req);
    var sent := Actions.SendTokens(f, req.address, req.amount, a.chain, net, emptyHashIsSuccess);
    var bookkeeping := if IsSuccess(sent.response, emptyHashIsSuccess)
                       then [SuccessfulRequestsInc, SaveDrip(key)] else [];
    var checked := Opening(req) + [HasDrippedToday(key), AccountQuery(req.address)];
    assert HandleRequest(f, req, a, net, emptyHashIsSuccess).trace
        == checked + ([SendTokensCall(req.address, req.amount)] + (sent.trace + bookkeeping));
    SendingLayout(checked, SendTokensCall(req.address, req.amount), sent.trace, bookkeeping);
  }

  /** The response is a success exactly on the sending path when `sendTokens` answered with a
      success; the success counter is bumped, and the quota key saved, exactly then, and the
      key saved is the key checked. The store holds the key afterwards exactly when, in
      addition, the save went through. */
  lemma BookkeepingOnlyOnSuccess(f: Actions.Faucet, req: DripRequest, a: Answers,
                                 net: Networks.NetworkData, emptyHashIsSuccess: bool)
    ensures var out := HandleRequest(f, req, a, net, emptyHashIsSuccess);
      var success := IsSuccess(out.response, emptyHashIsSuccess);
      && (success <==> Succeeds(f, req, a, net, emptyHashIsSuccess))
      && CountOf(out.trace, SuccessfulRequestsInc) == Ind(success)
      && CountOf(out.trace, SaveDrip(QuotaKeyOf(req))) == Ind(success)
      && (out.recorded.Some? <==> success && a.saveDripSucceeds)
  {
    Census(f, req, a, net, emptyHashIsSuccess, SuccessfulRequestsInc);
    Census(f, req, a, net, emptyHashIsSuccess, SaveDrip(QuotaKeyOf(req)));
  }

  /** Whether the fire-and-forget save goes through changes nothing the caller sees: the
      response, the dispatcher state and the calls made are the same either way. */
  lemma SaveDripFailureIsInvisible(f: Actions.Faucet, req: DripRequest, a: Answers,
                                   net: Networks.NetworkData, emptyHashIsSuccess: bool)
    ensures var ok := HandleRequest(f, req, a.(saveDripSucceeds := true), net, emptyHashIsSuccess);
      var failed := HandleRequest(f, req, a.(saveDripSucceeds := false), net, emptyHashIsSuccess);
      && ok.response == failed.response
      && ok.faucet == failed.faucet
      && ok.trace == failed.trace
      && failed.recorded.None?
  {
  }

  /** The quota store after a request: the day's keys, plus the key this request saved. */
  function Recorded(store: set<QuotaKey>, out: HandleOutcome): (s: set<QuotaKey>)
    ensures store <= s
    ensures out.recorded.Some? ==> out.recorded.value in s
  {
    if out.recorded.Some? then store + {out.recorded.value} else store
  }

  /** Two requests in a row on the same day with the same quota key: once the first one's
      drip was saved, the second is refused before `sendTokens` is called, provided the
      quota store answers from what it holds. */
  lemma SecondDripSameDayRefused(f: Actions.Faucet, req1: DripRequest, a1: Answers,
                                 req2: DripRequest, a2: Answers, store: set<QuotaKey>,
                                 net: Networks.NetworkData, emptyHashIsSuccess: bool)
    requires QuotaKeyOf(req2) == QuotaKeyOf(req1)
    requires HandleRequest(f, req1, a1, net, emptyHashIsSuccess).recorded.Some?
    requires a2.drippedToday == (QuotaKeyOf(req2) in Recorded(store, HandleRequest(f, req1, a1, net, emptyHashIsSuccess)))
    ensures var first := HandleRequest(f, req1, a1, net, emptyHashIsSuccess);
      var second := HandleRequest(first.faucet, req2, a2, net, emptyHashIsSuccess);
      && second.response.Error?
      && second.response.error in {CaptchaFailed, QuotaReached}
      && second.faucet == first.faucet
      && CountOf(second.trace, SendTokensCall(req2.address, req2.amount)) == 0
  {
    var first := HandleRequest(f, req1, a1, net, emptyHashIsSuccess);
    var second := HandleRequest(first.faucet, req2, a2, net, emptyHashIsSuccess);
    if CaptchaPasses(req2, a2) {
      RefusalsSendNothing(first.faucet, req2, a2, net, emptyHashIsSuccess);
    } else {
      CountOfAbsent(second.trace, SendTokensCall(req2.address, req2.amount));
    }
  }

  // ---------------------------------------------------------------------------------------
  // The process-wide handler

  /** A handler and the two collaborators it was built with, by identity. */
  datatype DripRequestHandler = DripRequestHandler(actions: nat, recaptcha: nat)

  /** `getDripRequestHandlerInstance(actions)`, given the module-level `instance` slot and the
      identity a new `Recaptcha` would get: the first call builds the handler and fills the
      slot; later calls return the stored handler and ignore their argument. Returns the
      handler and the slot afterwards. */
  function GetDripRequestHandlerInstance(slot: Option<DripRequestHandler>, actions: nat,
                                         newRecaptcha: nat): (r: (DripRequestHandler, Option<DripRequestHandler>))
    ensures r.1 == Some(r.0)
    ensures slot.Some? ==> r.0 == slot.value
    ensures slot.None? ==> r.0.actions == actions && r.0.recaptcha == newRecaptcha
  {
    if slot.None? then
      var h := DripRequestHandler(actions, newRecaptcha);
      (h, Some(h))
    else (slot.value, slot)
  }

  /** Any number of further calls, with any arguments, return the handler the first call
      built, and leave the slot as it was. */
  lemma {:induction false} InstanceIsStable(slot: Option<DripRequestHandler>, actions: nat, newRecaptcha: nat,
                                             later: seq<(nat, nat)>)
    ensures var (h, s) := GetDripRequestHandlerInstance(slot, actions, newRecaptcha);
      Replay(s, later) == s && forall i :: 0 <= i < |later| ==>
        GetDripRequestHandlerInstance(s, later[i].0, later[i].1).0 == h
    decreases |later|
  {
    var (h, s) := GetDripRequestHandlerInstance(slot, actions, newRecaptcha);
    if |later| > 0 {
      InstanceIsStable(s, later[0].0, later[0].1, later[1..]);
    }
  }

  /** The slot after a sequence of calls. */
  function Replay(slot: Option<DripRequestHandler>, calls: seq<(nat, nat)>): (s: Option<DripRequestHandler>)
    ensures slot.Some? ==> s.Some?
    decreases |calls|
  {
    if |calls| == 0 then slot
    else Replay(GetDripRequestHandlerInstance(slot, calls[0].0, calls[0].1).1, calls[1..])
  }
}

=== FILE: escalation.dfy ===
/** A trace-level description of tiered submission, independent of how the dispatcher is
    written: which submissions a trace holds, in which order, and which hash they yield. */
module Escalation {
  import opened Types

  predicate IsSubmission(e: Event) {
    e.TransferSubmit? || e.BatchSubmit?
  }

  predicate Accepted(e: Event) {
    IsSubmission(e) && e.outcome.Accepted?
  }

  predicate Rejected(e: Event) {
    IsSubmission(e) && e.outcome.Rejected?
  }

  /** The tier a submission belongs to: 1 primary account, 2 backup account with the default
      nonce, 3 backup account with a queried nonce, 4 the queued batch; 0 for other events. */
  function Rank(e: Event): (r: nat)
    ensures r <= 4
    ensures IsSubmission(e) <==> r >= 1
  {
    match e
    case TransferSubmit(Primary, _, _, _) => 1
    case TransferSubmit(Backup, Auto, _, _) => 2
    case TransferSubmit(Backup, Explicit(_), _, _) => 3
    case BatchSubmit(_, _, _, _) => 4
    case _ => 0
  }

  /** The submissions of a trace, in order. */
  function Submissions(t: seq<Event>): (s: seq<Event>)
    decreases |t|
  {
    if |t| == 0 then []
    else (if IsSubmission(t[0]) then [t[0]] else []) + Submissions(t[1..])
  }

  /** Every element is a submission, ranks climb strictly, and every one but the last was
      rejected: a later tier only ever runs because an earlier one failed. */
  ghost predicate Climbs(s: seq<Event>) {
    && (forall i :: 0 <= i < |s| ==> IsSubmission(s[i]))
    && (forall i :: 0 <= i < |s| - 1 ==> Rank(s[i]) < Rank(s[i + 1]) && Rejected(s[i]))
  }

  /** Every submission belongs to tier `r` or a later one. */
  ghost predicate RanksFrom(s: seq<Event>, r: nat) {
    forall i :: 0 <= i < |s| ==> Rank(s[i]) >= r
  }

  /** Submissions start at tier 1 and climb. */
  ghost predicate WellEscalated(s: seq<Event>) {
    |s| >= 1 && Rank(s[0]) == 1 && Climbs(s)
  }

  /** The hash a run of submissions yields: the last one's, if it was accepted, else "". */
  function ResultHash(s: seq<Event>): string {
    if |s| > 0 && Accepted(s[|s| - 1]) then s[|s| - 1].outcome.hash else ""
  }

  /** The hash of the first accepted submission, "" when none was accepted. */
  function FirstAcceptedHash(s: seq<Event>): string
    decreases |s|
  {
    if |s| == 0 then ""
    else if Accepted(s[0]) then s[0].outcome.hash
    else FirstAcceptedHash(s[1..])
  }

  /** On a climbing run the first accepted submission is the last one, so the two readings of
      "the hash the tiers yield" agree. */
  lemma {:induction false} FirstAcceptedIsLast(s: seq<Event>)
    requires Climbs(s)
    ensures FirstAcceptedHash(s) == ResultHash(s)
    decreases |s|
  {
    if |s| >= 2 {
      var t := s[1..];
      assert Climbs(t) by {
        forall i | 0 <= i < |t| - 1
          ensures Rank(t[i]) < Rank(t[i + 1]) && Rejected(t[i])
        {
          assert t[i] == s[i + 1] && t[i + 1] == s[i + 2];
        }
      }
      FirstAcceptedIsLast(t);
      assert t[|t| - 1] == s[|s| - 1];
    }
  }

  /** A rejected submission of a lower tier can go in front of a climbing run; the run's
      hash is unchanged by it. */
  lemma ClimbsCons(x: Event, s: seq<Event>)
    requires Rejected(x) && Climbs(s) && RanksFrom(s, Rank(x) + 1)
    ensures Climbs([x] + s) && RanksFrom([x] + s, Rank(x))
    ensures ResultHash([x] + s) == ResultHash(s)
  {
    var t := [x] + s;
    forall i | 0 <= i < |t| - 1
      ensures Rank(t[i]) < Rank(t[i + 1]) && Rejected(t[i])
    {
      if i > 0 {
        assert t[i] == s[i - 1] && t[i + 1] == s[i];
      }
    }
  }

  /** A rejected submission made in front of a trace whose submissions climb from the next
      tier up: the submissions of the longer trace climb from its tier, start with it, and
      yield the same hash. */
  lemma PrependRejected(x: Event, t: seq<Event>)
    requires Rejected(x) && Climbs(Submissions(t)) && RanksFrom(Submissions(t), Rank(x) + 1)
    ensures var s := Submissions([x] + t);
      && Climbs(s) && RanksFrom(s, Rank(x)) && |s| >= 1 && s[0] == x
      && ResultHash(s) == ResultHash(Submissions(t))
  {
    SubmissionsCons(x, t);
    ClimbsCons(x, Submissions(t));
  }

  lemma SubmissionsCons(x: Event, t: seq<Event>)
    ensures Submissions([x] + t) == (if IsSubmission(x) then [x] else []) + Submissions(t)
  {
    assert ([x] + t)[1..] == t;
  }

  lemma {:induction false} SubmissionsAppend(a: seq<Event>, b: seq<Event>)
    ensures Submissions(a + b) == Submissions(a) + Submissions(b)
    decreases |a|
  {
    if |a| > 0 {
      assert (a + b)[1..] == a[1..] + b;
      SubmissionsAppend(a[1..], b);
    } else {
      assert a + b == b;
    }
  }

  lemma SubmissionsOfOne(e: Event)
    ensures Submissions([e]) == if IsSubmission(e) then [e] else []
  {
    assert [e][1..] == [];
  }

  lemma {:induction false} SubmissionsNone(t: seq<Event>)
    requires forall i :: 0 <= i < |t| ==> !IsSubmission(t[i])
    ensures Submissions(t) == []
    decreases |t|
  {
    if |t| > 0 {
      SubmissionsNone(t[1..]);
    }
  }

  /** How many times `x` occurs in the trace. */
  function CountOf(t: seq<Event>, x: Event): nat
    decreases |t|
  {
    if |t| == 0 then 0 else (if t[0] == x then 1 else 0) + CountOf(t[1..], x)
  }

  lemma CountOfCons(x: Event, t: seq<Event>, y: Event)
    ensures CountOf([x] + t, y) == (if x == y then 1 else 0) + CountOf(t, y)
  {
    assert ([x] + t)[1..] == t;
  }

  lemma {:induction false} CountOfAppend(a: seq<Event>, b: seq<Event>, x: Event)
    ensures CountOf(a + b, x) == CountOf(a, x) + CountOf(b, x)
    decreases |a|
  {
    if |a| > 0 {
      assert (a + b)[1..] == a[1..] + b;
      CountOfAppend(a[1..], b, x);
    } else {
      assert a + b == b;
    }
  }

  lemma {:induction false} CountOfAbsent(t: seq<Event>, x: Event)
    requires forall i :: 0 <= i < |t| ==> t[i] != x
    ensures CountOf(t, x) == 0
    decreases |t|
  {
    if |t| > 0 {
      CountOfAbsent(t[1..], x);
    }
  }

  lemma {:induction false} RankGrows(s: seq<Event>, i: nat)
    requires WellEscalated(s)
    requires i < |s|
    ensures Rank(s[i]) >= i + 1
    decreases i
  {
    if i > 0 {
      RankGrows(s, i - 1);
    }
  }

  /** At most four submissions happen, and at most one of them (the last) is accepted. */
  lemma AtMostOneTierSucceeds(s: seq<Event>)
    requires WellEscalated(s)
    ensures |s| <= 4
    ensures forall i :: 0 <= i < |s| && Accepted(s[i]) ==> i == |s| - 1
  {
    RankGrows(s, |s| - 1);
  }
}

=== FILE: network_data.dfy ===
/** The static per-network configuration and its lookup by name. */
module Networks {
  import opened Wrappers
  import Text

  datatype ChainData = ChainData(name: string, id: int)

  datatype NetworkData = NetworkData(
    networkName: string,
    currency: string,
    chains: seq<ChainData>,
    explorer: Option<string>,
    rpcEndpoint: string,
    decimals: nat,
    dripAmount: string,
    balanceCap: int)

  const Avail: NetworkData := NetworkData(
    networkName := "Avail-Testnet",
    currency := "AVL",
    chains := [ChainData("Avail", -1)],
    explorer := Some("https://goldberg.avail.tools/"),
    rpcEndpoint := "wss://rpc-goldberg.sandbox.avail.tools",
    decimals := 18,
    dripAmount := "1",
    balanceCap := 100)

  /** The `networks` record, its entries in key order. */
  const Table: seq<(string, NetworkData)> := [("avail", Avail)]

  /** `Object.keys(networks)`. */
  function Names(): (names: seq<string>)
    ensures |names| == |Table|
    ensures forall i :: 0 <= i < |Table| ==> names[i] == Table[i].0
  {
    seq(|Table|, i requires 0 <= i < |Table| => Table[i].0)
  }

  /** The entry of the first key equal to `name`. */
  function Find(table: seq<(string, NetworkData)>, name: string): (r: NetworkData)
    requires exists i :: 0 <= i < |table| && table[i].0 == name
    ensures (name, r) in table
    decreases |table|
  {
    if table[0].0 == name then table[0].1 else Find(table[1..], name)
  }

  function UnknownNetworkMessage(name: string): string {
    "Unknown NETWORK in env: " + name + "; valid networks are: [" + Text.Join(Names(), ", ") + "]"
  }

  /** `getNetworkData`: the record stored under `name`, or the "Unknown NETWORK" error naming
      `name` and every valid key. */
  function GetNetworkData(name: string): (r: Result<NetworkData, string>)
    ensures r.Success? <==> name in Names()
    ensures r.Success? ==> (name, r.value) in Table
    ensures r.Failure? ==> Text.OccursAt("Unknown NETWORK", r.error, 0)
    ensures r.Failure? ==> Text.Occurs(name, r.error)
    ensures r.Failure? ==> forall k :: 0 <= k < |Names()| ==> Text.Occurs(Names()[k], r.error)
  {
    if name !in Names() then
      var msg := UnknownNetworkMessage(name);
      MessageListsNames(name);
      Failure(msg)
    else
      var i :| 0 <= i < |Names()| && Names()[i] == name;
      assert Table[i].0 == name;
      Success(Find(Table, name))
  }

  lemma MessageListsNames(name: string)
    ensures Text.Occurs(name, UnknownNetworkMessage(name))
    ensures forall k :: 0 <= k < |Names()| ==> Text.Occurs(Names()[k], UnknownNetworkMessage(name))
  {
    var head := "Unknown NETWORK in env: ";
    var joined := Text.Join(Names(), ", ");
    var tail := "; valid networks are: [" + joined + "]";
    assert UnknownNetworkMessage(name) == head + name + tail;
    assert Text.OccursAt(name, name, 0);
    Text.OccursInContext(name, head, name, tail);
    forall k | 0 <= k < |Names()|
      ensures Text.Occurs(Names()[k], UnknownNetworkMessage(name))
    {
      Text.JoinListsEveryPart(Names(), ", ", k);
      var before := head + name + "; valid networks are: [";
      Text.OccursInContext(Names()[k], before, joined, "]");
      assert before + joined + "]" == UnknownNetworkMessage(name);
    }
  }

  /** "avail" is the one valid network name. */
  lemma OnlyAvailIsKnown(name: string)
    ensures GetNetworkData(name).Success? <==> name == "avail"
  {
    assert Names() == ["avail"];
  }

  /** The avail record's cap, decimals, currency and drip amount. */
  lemma AvailRecord()
    ensures GetNetworkData("avail") == Success(Avail)
    ensures Avail.balanceCap == 100 && Avail.decimals == 18
    ensures Avail.currency == "AVL" && Avail.dripAmount == "1"
  {
    assert Names() == ["avail"];
  }
}

=== FILE: polkadot_actions.dfy ===
/** The faucet's account-side operations: balance conversion and cap check, the cached
    balance snapshot, and tiered transfer submission with the Redis retry set. */
module Actions {
  import opened Wrappers
  import opened Types
  import opened Escalation
  import Text
  import Networks

  /** The queue tier builds a batch only once the retry set holds MORE than this many members. */
  const BatchThreshold: nat := 20
  /** How many members the queue tier samples into one batch. */
  const BatchSize: nat := 20

  const AccountNotReady: string := "account not ready"
  const SendFailed: string := "An error occured when sending tokens"

  datatype Account = Account(address: string)

  /** The state `sendTokens` works on: the two signing accounts (`undefined` until the keys are
      loaded), the last fetched balance of the primary account (`undefined` until the first
      fetch, possibly stale after it), and the Redis set `TransactionQueue` of addresses
      awaiting a batch. Members of the set are addresses: the source stores them through
      `JSON.stringify` and reads them back through `JSON.parse`, which undo each other. */
  datatype Faucet = Faucet(
    account: Option<Account>,
    backupAccount: Option<Account>,
    faucetBalance: Option<nat>,
    queue: set<string>)

  /** The answers of the chain and of Redis during one `sendTokens` call.
      - apiError: `Some(message)` when connecting to the node before Tier 1 throws;
      - tier1, tier2, tier3: what the three single-transfer submissions return;
      - backupApiReady: whether reconnecting before the backup tiers succeeds;
      - nextNonce: `accountNextIndex` of the backup account, `None` when the query throws;
      - sample: the members `SRANDMEMBER` returns, in the order it returns them;
      - batch: what the batch submission returns;
      - refresh: the primary account's free balance at the post-success refresh, `None` when
        that query throws. */
  datatype ChainOracle = ChainOracle(
    apiError: Option<string>,
    tier1: Submission,
    backupApiReady: bool,
    tier2: Submission,
    nextNonce: Option<nat>,
    tier3: Submission,
    sample: seq<string>,
    batch: Submission,
    refresh: Option<nat>)

  datatype Refresh = Refresh(faucet: Faucet, trace: seq<Event>)

  /** What the four tiers leave behind: the hash string, the retry set and the calls made. */
  datatype Escalated = Escalated(res: string, queue: set<string>, trace: seq<Event>)

  datatype SendOutcome = SendOutcome(response: DripResponse, faucet: Faucet, trace: seq<Event>)

  /** The state right after construction: keys not loaded, no balance fetched yet. */
  function Constructed(queue: set<string>): Faucet {
    Faucet(None, None, None, queue)
  }

  /** Calls Tier 4 issues: Redis set commands and the batch submission. */
  predicate QueueEvent(e: Event) {
    e.QueueAdd? || e.QueueCard? || e.QueueSample? || e.QueueRemove? || e.BatchSubmit?
  }

  /** Calls the four tiers issue: single transfers, the nonce query and Tier 4's calls. */
  predicate TierCall(e: Event) {
    e.TransferSubmit? || e.NonceQuery? || QueueEvent(e)
  }

  /** Calls the dispatcher itself issues (as opposed to the request handler's): the tiers'
      calls and the balance refresh. */
  predicate FromDispatcher(e: Event) {
    TierCall(e) || e.FaucetBalanceQuery?
  }

  // ---------------------------------------------------------------------------------------
  // Balances

  function Pow10(d: nat): (p: nat)
    ensures p >= 1
  {
    if d == 0 then 1 else 10 * Pow10(d - 1)
  }

  /** `q` is `x / p` rounded down. */
  predicate IsFloorDiv(q: int, x: int, p: int) {
    q * p <= x < (q + 1) * p
  }

  /** Division of naturals, rounding down. */
  function FloorDiv(x: nat, p: nat): (q: nat)
    requires p >= 1
    ensures IsFloorDiv(q, x, p)
  {
    var q := x / p;
    assert x == q * p + x % p;
    assert (q + 1) * p == q * p + p;
    q
  }

  /** `getAccountBalance`: the free balance in whole tokens, rounded down. */
  function GetAccountBalance(free: nat, decimals: nat): (whole: nat)
    ensures IsFloorDiv(whole, free, Pow10(decimals))
  {
    FloorDiv(free, Pow10(decimals))
  }

  /** `isAccountOverBalanceCap`, given the address's raw free balance: over exactly when the
      balance reaches one whole token more than the cap. */
  function IsAccountOverBalanceCap(free: nat, net: Networks.NetworkData): (over: bool)
    ensures over <==> free >= (net.balanceCap + 1) * Pow10(net.decimals)
  {
    OverCapIffBalanceReachesNextWholeToken(free, net);
    GetAccountBalance(free, net.decimals) > net.balanceCap
  }

  /** The whole-token balance exceeds the cap exactly when the raw balance reaches one whole
      token more than the cap; `cap` whole tokens plus any fraction is still not over. */
  lemma OverCapIffBalanceReachesNextWholeToken(free: nat, net: Networks.NetworkData)
    ensures GetAccountBalance(free, net.decimals) > net.balanceCap
        <==> free >= (net.balanceCap + 1) * Pow10(net.decimals)
  {
    var p := Pow10(net.decimals);
    var whole := GetAccountBalance(free, net.decimals);
    if whole > net.balanceCap {
      MulMonotone(net.balanceCap + 1, whole, p);
    } else {
      MulMonotone(whole + 1, net.balanceCap + 1, p);
    }
  }

  lemma MulMonotone(a: int, b: int, p: nat)
    requires a <= b
    ensures a * p <= b * p
  {
  }

  /** `getFaucetBalance`: the cached snapshot, without any chain call. */
  function GetFaucetBalance(f: Faucet): Option<nat> {
    f.faucetBalance
  }

  /** `updateFaucetBalance`: refresh the snapshot from the chain (`query` is the answer). */
  function UpdateFaucetBalance(f: Faucet, query: Option<nat>): (u: Refresh)
    ensures u.faucet.account == f.account && u.faucet.backupAccount == f.backupAccount
    ensures u.faucet.queue == f.queue
    ensures (f.account.None? || f.account.value.address == "") ==> u == Refresh(f, [])
    ensures f.account.Some? && f.account.value.address != "" ==>
              u.trace == [FaucetBalanceQuery(f.account.value.address)]
    ensures u.faucet.faucetBalance != f.faucetBalance ==> u.faucet.faucetBalance == query
    ensures query.None? ==> u.faucet.faucetBalance == f.faucetBalance
    ensures f.account.Some? && f.account.value.address != "" && query.Some? ==>
              u.faucet.faucetBalance == query
  {
    if f.account.None? || f.account.value.address == "" then Refresh(f, [])
    else
      var cached := if query.Some? then query else f.faucetBalance;
      Refresh(f.(faucetBalance := cached), [FaucetBalanceQuery(f.account.value.address)])
  }

  /** What the snapshot getter reads after a refresh: the fetched balance when an account with
      an address is loaded and the query answered, the previous snapshot otherwise. */
  lemma SnapshotFollowsRefresh(f: Faucet, query: Option<nat>)
    ensures GetFaucetBalance(UpdateFaucetBalance(f, query).faucet)
      == (if f.account.Some? && f.account.value.address != "" && query.Some? then query
          else GetFaucetBalance(f))
  {
  }

  /** `getBalance`: the primary account's free balance as canonical decimal text (no leading
      zero), "0" when the account is not ready or the query throws. */
  function GetBalance(f: Faucet, query: Option<nat>): (s: string)
    ensures f.account.None? || query.None? ==> s == "0"
    ensures Text.AllDigits(s)
    ensures |s| >= 1 && (|s| == 1 || s[0] != '0')
    ensures f.account.Some? && query.Some? ==> Text.ParseNat(s) == query.value
  {
    if f.account.None? || query.None? then "0"
    else
      Text.ParseNatToString(query.value);
      Text.NatToString(query.value)
  }

  // ---------------------------------------------------------------------------------------
  // Tiered submission

  /** The error text a caught exception becomes: its message, or the generic one when empty. */
  function ErrorText(message: string): (text: string)
    ensures text != ""
    ensures message != "" ==> text == message
    ensures message == "" ==> text == SendFailed
  {
    if message == "" then SendFailed else message
  }

  /** The insufficient-balance error. The source formats both amounts with a helper that is
      not part of this model; plain decimal text stands in for it. */
  function InsufficientBalanceMessage(amount: nat, balance: nat, currency: string): string {
    "Can't send " + Text.NatToString(amount) + " " + currency + "s, as balance is only "
      + Text.NatToString(balance) + " " + currency + "s."
  }

  /** `SRANDMEMBER key 20` on a set with more than 20 members returns 20 distinct members. */
  ghost predicate IsSample(sample: seq<string>, queue: set<string>) {
    |sample| == BatchSize && |Members(sample)| == BatchSize && Members(sample) <= queue
  }

  /** The batch: one transfer per sampled member, each at the current request's amount. */
  function BatchOf(sample: seq<string>, amount: int): (b: seq<Transfer>)
    ensures |b| == |sample|
    ensures forall i :: 0 <= i < |sample| ==> b[i] == Transfer(sample[i], amount)
  {
    seq(|sample|, i requires 0 <= i < |sample| => Transfer(sample[i], amount))
  }

  function Removals(sample: seq<string>): (t: seq<Event>)
    ensures |t| == |sample|
    ensures forall i :: 0 <= i < |sample| ==> t[i] == QueueRemove(sample[i])
  {
    seq(|sample|, i requires 0 <= i < |sample| => QueueRemove(sample[i]))
  }

  /** The set of elements of a sequence. */
  function Members(s: seq<string>): (m: set<string>)
    ensures forall x :: x in m <==> x in s
  {
    set x | x in s
  }

  /** The batch step of Tier 4: sample 20 members, remove each of them from the set, then
      submit one batch paying all of them, signed by the primary account. */
  function DrainBatch(added: set<string>, amount: int, sample: seq<string>,
                      batch: Submission): (e: Escalated)
    ensures |e.trace| >= 1
  {
    var submit := BatchSubmit(Primary, Auto, BatchOf(sample, amount), batch);
    var removing := [QueueSample(BatchSize)] + Removals(sample);
    Escalated(if batch.Accepted? then batch.hash else "", added - Members(sample), removing + [submit])
  }

  /** The removals come before the submission, so they stand whether or not the batch is
      accepted; the set shrinks by exactly the 20 sampled members. */
  lemma DrainBatchFacts(added: set<string>, amount: int, sample: seq<string>, batch: Submission)
    ensures var e := DrainBatch(added, amount, sample, batch);
      && e.queue == added - Members(sample)
      && e.trace[|e.trace| - 1] == BatchSubmit(Primary, Auto, BatchOf(sample, amount), batch)
      && (forall k :: 0 <= k < |sample| ==> QueueRemove(sample[k]) in e.trace[..|e.trace| - 1])
      && Submissions(e.trace) == [BatchSubmit(Primary, Auto, BatchOf(sample, amount), batch)]
      && OnlyQueueEvents(e.trace)
      && (forall i :: 0 <= i < |e.trace| ==> !e.trace[i].QueueAdd?)
      && e.res == (if batch.Accepted? then batch.hash else "")
  {
    var submit := BatchSubmit(Primary, Auto, BatchOf(sample, amount), batch);
    var removing := [QueueSample(BatchSize)] + Removals(sample);
    var trace := removing + [submit];
    RemovalEvents(removing, sample);
    SubmissionsEndingInBatch(removing, submit);
    assert trace[..|trace| - 1] == removing;
  }

  lemma DrainedCard(added: set<string>, sample: seq<string>)
    requires IsSample(sample, added)
    ensures |added - Members(sample)| == |added| - BatchSize
  {
    var sampled := Members(sample);
    assert added == (added - sampled) + sampled;
  }

  lemma RemovalEvents(removing: seq<Event>, sample: seq<string>)
    requires removing == [QueueSample(BatchSize)] + Removals(sample)
    ensures forall k :: 0 <= k < |sample| ==> QueueRemove(sample[k]) in removing
    ensures forall i :: 0 <= i < |removing| ==> removing[i].QueueSample? || removing[i].QueueRemove?
  {
    forall k | 0 <= k < |sample|
      ensures QueueRemove(sample[k]) in removing
    {
      assert removing[1 + k] == QueueRemove(sample[k]);
    }
    forall i | 0 <= i < |removing|
      ensures removing[i].QueueSample? || removing[i].QueueRemove?
    {
      if i > 0 {
        assert removing[i] == QueueRemove(sample[i - 1]);
      }
    }
  }

  lemma SubmissionsEndingInBatch(removing: seq<Event>, submit: Event)
    requires forall i :: 0 <= i < |removing| ==> !IsSubmission(removing[i])
    requires submit.BatchSubmit?
    ensures Submissions(removing + [submit]) == [submit]
  {
    SubmissionsNone(removing);
    SubmissionsAppend(removing, [submit]);
    SubmissionsOfOne(submit);
  }

  /** Tier 4: add the address to the retry set; when the set then holds more than 20 members,
      drain a batch. Nothing thrown here escapes: a rejected batch just leaves the hash empty. */
  function QueueTier(queue: set<string>, address: string, amount: int, sample: seq<string>,
                     batch: Submission): (e: Escalated)
    ensures |e.trace| >= 2 && e.trace[0] == QueueAdd(address)
    ensures |queue + {address}| <= BatchThreshold ==>
              e.queue == queue + {address} && e.res == "" && Submissions(e.trace) == []
  {
    var added := queue + {address};
    var counted := [QueueAdd(address), QueueCard];
    if |added| <= BatchThreshold then
      SubmissionsNone(counted);
      Escalated("", added, counted)
    else
      var d := DrainBatch(added, amount, sample, batch);
      DrainBatchFacts(added, amount, sample, batch);
      Escalated(d.res, d.queue, counted + d.trace)
  }

  /** A Tier 4 run issues only Redis set commands and the batch, and adds just the one
      address, first. */
  lemma QueueTierEvents(queue: set<string>, address: string, amount: int, sample: seq<string>,
                        batch: Submission)
    ensures var e := QueueTier(queue, address, amount, sample, batch);
      && OnlyQueueEvents(e.trace)
      && (forall i :: 1 <= i < |e.trace| ==> !e.trace[i].QueueAdd?)
  {
    var added := queue + {address};
    if |added| > BatchThreshold {
      DrainBatchFacts(added, amount, sample, batch);
    }
  }

  lemma QueueTierCalls(queue: set<string>, address: string, amount: int, sample: seq<string>,
                       batch: Submission)
    ensures var e := QueueTier(queue, address, amount, sample, batch);
      && CountOf(e.trace, NonceQuery(Backup)) == 0
      && CountOf(e.trace, QueueAdd(address)) == 1
      && OnlyTierCalls(e.trace)
  {
    var e := QueueTier(queue, address, amount, sample, batch);
    QueueTierEvents(queue, address, amount, sample, batch);
    CountOfAbsent(e.trace, NonceQuery(Backup));
    CountOfAbsent(e.trace[1..], QueueAdd(address));
  }

  /** Tier 4 on a set that reaches 21 or more members: the 20 sampled members leave the set
      whatever the batch answers, so the set shrinks by exactly 20 and the address itself may
      be among those drained. */
  lemma QueueTierDrains(queue: set<string>, address: string, amount: int, sample: seq<string>,
                        batch: Submission)
    requires |queue + {address}| > BatchThreshold
    requires IsSample(sample, queue + {address})
    ensures var e := QueueTier(queue, address, amount, sample, batch);
      && e.queue == (queue + {address}) - Members(sample)
      && |e.queue| == |queue + {address}| - BatchSize
  {
    var added := queue + {address};
    DrainBatchFacts(added, amount, sample, batch);
    DrainedCard(added, sample);
  }

  /** Tier 4 on a set that reaches 21 or more members: every sampled member is removed before
      the batch is submitted, the batch pays each of them the current amount and is signed by
      the primary account, and the response hash is the batch's when it is accepted. */
  lemma QueueTierBatches(queue: set<string>, address: string, amount: int, sample: seq<string>,
                         batch: Submission)
    requires |queue + {address}| > BatchThreshold
    ensures var e := QueueTier(queue, address, amount, sample, batch);
      && e.trace[|e.trace| - 1] == BatchSubmit(Primary, Auto, BatchOf(sample, amount), batch)
      && (forall k :: 0 <= k < |sample| ==> QueueRemove(sample[k]) in e.trace[..|e.trace| - 1])
      && Submissions(e.trace) == [BatchSubmit(Primary, Auto, BatchOf(sample, amount), batch)]
      && e.res == (if batch.Accepted? then batch.hash else "")
  {
    var added := queue + {address};
    var counted := [QueueAdd(address), QueueCard];
    var d := DrainBatch(added, amount, sample, batch);
    DrainBatchFacts(added, amount, sample, batch);
    var trace := counted + d.trace;
    assert QueueTier(queue, address, amount, sample, batch).trace == trace;
    SubmissionsNone(counted);
    SubmissionsAppend(counted, d.trace);
    assert trace[..|trace| - 1] == counted + d.trace[..|d.trace| - 1];
  }

  /** The trace holds the batch submission `submit`, and removes every sampled member from the
      retry set before it. */
  ghost predicate RemovesBeforeSubmitting(t: seq<Event>, sample: seq<string>, submit: Event) {
    exists i :: 0 <= i < |t| && t[i] == submit
      && forall k :: 0 <= k < |sample| ==> QueueRemove(sample[k]) in t[..i]
  }

  lemma RemovesBeforeSubmittingCons(x: Event, t: seq<Event>, sample: seq<string>, submit: Event)
    requires RemovesBeforeSubmitting(t, sample, submit)
    ensures RemovesBeforeSubmitting([x] + t, sample, submit)
  {
    var i :| 0 <= i < |t| && t[i] == submit
      && forall k :: 0 <= k < |sample| ==> QueueRemove(sample[k]) in t[..i];
    var w := [x] + t;
    assert w[i + 1] == submit;
    assert w[..i + 1] == [x] + t[..i];
  }

  lemma RemovesBeforeSubmittingAppend(t: seq<Event>, post: seq<Event>, sample: seq<string>, submit: Event)
    requires RemovesBeforeSubmitting(t, sample, submit)
    ensures RemovesBeforeSubmitting(t + post, sample, submit)
  {
    var i :| 0 <= i < |t| && t[i] == submit
      && forall k :: 0 <= k < |sample| ==> QueueRemove(sample[k]) in t[..i];
    var w := t + post;
    assert w[i] == submit;
    assert w[..i] == t[..i];
  }

  lemma QueueTierRemovesBeforeBatch(queue: set<string>, address: string, amount: int,
                                    sample: seq<string>, batch: Submission)
    requires |queue + {address}| > BatchThreshold
    ensures RemovesBeforeSubmitting(QueueTier(queue, address, amount, sample, batch).trace, sample,
                                    BatchSubmit(Primary, Auto, BatchOf(sample, amount), batch))
  {
    var t := QueueTier(queue, address, amount, sample, batch).trace;
    QueueTierBatches(queue, address, amount, sample, batch);
    var i := |t| - 1;
    assert t[i] == BatchSubmit(Primary, Auto, BatchOf(sample, amount), batch);
  }

  /** The calls of a Tier 4 run are Redis set commands and the batch submission. */
  ghost predicate OnlyQueueEvents(t: seq<Event>) {
    forall i :: 0 <= i < |t| ==> QueueEvent(t[i])
  }

  ghost predicate OnlyTierCalls(t: seq<Event>) {
    forall i :: 0 <= i < |t| ==> TierCall(t[i])
  }

  lemma OnlyTierCallsAppend(a: seq<Event>, b: seq<Event>)
    requires OnlyTierCalls(a) && OnlyTierCalls(b)
    ensures OnlyTierCalls(a + b)
  {
    forall i | 0 <= i < |a + b|
      ensures TierCall((a + b)[i])
    {
      if i >= |a| {
        assert (a + b)[i] == b[i - |a|];
      }
    }
  }

  ghost predicate OnlyDispatcherEvents(t: seq<Event>) {
    forall i :: 0 <= i < |t| ==> FromDispatcher(t[i])
  }

  lemma OnlyDispatcherAppend(a: seq<Event>, b: seq<Event>)
    requires OnlyDispatcherEvents(a) && OnlyDispatcherEvents(b)
    ensures OnlyDispatcherEvents(a + b)
  {
    forall i | 0 <= i < |a + b|
      ensures FromDispatcher((a + b)[i])
    {
      if i >= |a| {
        assert (a + b)[i] == b[i - |a|];
      }
    }
  }

  lemma QueueTierClimbs(queue: set<string>, address: string, amount: int, sample: seq<string>,
                        batch: Submission)
    ensures var e := QueueTier(queue, address, amount, sample, batch);
      && Climbs(Submissions(e.trace)) && RanksFrom(Submissions(e.trace), 4)
      && e.res == ResultHash(Submissions(e.trace))
  {
    if |queue + {address}| > BatchThreshold {
      var submit := BatchSubmit(Primary, Auto, BatchOf(sample, amount), batch);
      QueueTierBatches(queue, address, amount, sample, batch);
      assert Submissions(QueueTier(queue, address, amount, sample, batch).trace) == [submit];
    }
  }

  /** Tier 3 and on, once the backup account's next nonce has been asked for: resubmit with
      that nonce, and fall through to the queue when the query or the resubmission throws. */
  function NonceTier(queue: set<string>, address: string, amount: int, o: ChainOracle): (e: Escalated)
    ensures |e.trace| >= 1
    ensures o.nextNonce.None? ==> e.trace[0] == QueueAdd(address)
    ensures o.nextNonce.Some? ==>
              e.trace[0] == TransferSubmit(Backup, Explicit(o.nextNonce.value), Transfer(address, amount), o.tier3)
    ensures o.nextNonce.Some? && o.tier3.Accepted? ==>
              e.res == o.tier3.hash && e.queue == queue && |e.trace| == 1
  {
    match o.nextNonce
    case None =>
      var q := QueueTier(queue, address, amount, o.sample, o.batch);
      Escalated(q.res, q.queue, q.trace)
    case Some(n) =>
      var t3 := TransferSubmit(Backup, Explicit(n), Transfer(address, amount), o.tier3);
      if o.tier3.Accepted? then Escalated(o.tier3.hash, queue, [t3])
      else
        var q := QueueTier(queue, address, amount, o.sample, o.batch);
        Escalated(q.res, q.queue, [t3] + q.trace)
  }

  lemma NonceTierClimbs(queue: set<string>, address: string, amount: int, o: ChainOracle)
    ensures var e := NonceTier(queue, address, amount, o);
      && Climbs(Submissions(e.trace)) && RanksFrom(Submissions(e.trace), 3)
      && e.res == ResultHash(Submissions(e.trace))
  {
    var e := NonceTier(queue, address, amount, o);
    var q := QueueTier(queue, address, amount, o.sample, o.batch);
    QueueTierClimbs(queue, address, amount, o.sample, o.batch);
    if o.nextNonce.Some? {
      var t3 := TransferSubmit(Backup, Explicit(o.nextNonce.value), Transfer(address, amount), o.tier3);
      if o.tier3.Rejected? {
        PrependRejected(t3, q.trace);
        assert e == Escalated(q.res, q.queue, [t3] + q.trace);
      } else {
        assert e == Escalated(o.tier3.hash, queue, [t3]);
        SubmissionsOfOne(t3);
      }
    } else {
      assert e == q;
    }
  }

  /** Tier 3 asks for no nonce itself; it adds the address to the retry set once exactly when
      it hands over to Tier 4, and otherwise leaves the set alone. */
  lemma NonceTierCalls(queue: set<string>, address: string, amount: int, o: ChainOracle)
    ensures var e := NonceTier(queue, address, amount, o);
      && CountOf(e.trace, NonceQuery(Backup)) == 0
      && CountOf(e.trace, QueueAdd(address)) == (if o.nextNonce.None? || o.tier3.Rejected? then 1 else 0)
      && (o.nextNonce.Some? && o.tier3.Accepted? ==> e.queue == queue)
      && OnlyTierCalls(e.trace)
  {
    var e := NonceTier(queue, address, amount, o);
    var q := QueueTier(queue, address, amount, o.sample, o.batch);
    QueueTierCalls(queue, address, amount, o.sample, o.batch);
    if o.nextNonce.Some? {
      var t3 := TransferSubmit(Backup, Explicit(o.nextNonce.value), Transfer(address, amount), o.tier3);
      var rest := if o.tier3.Rejected? then q.trace else [];
      assert e.trace == [t3] + rest;
      CountOfCons(t3, rest, NonceQuery(Backup));
      CountOfCons(t3, rest, QueueAdd(address));
      OnlyTierCallsAppend([t3], rest);
    } else {
      assert e == q;
    }
  }

  /** Tiers 2 to 4, run with the backup account once Tier 1 threw. */
  function BackupTiers(queue: set<string>, address: string, amount: int, o: ChainOracle): (e: Escalated)
    ensures |e.trace| >= 1 && e.trace[0] == TransferSubmit(Backup, Auto, Transfer(address, amount), o.tier2)
    ensures o.tier2.Accepted? ==> e.res == o.tier2.hash && e.queue == queue && |e.trace| == 1
    ensures o.tier2.Rejected? ==> |e.trace| >= 3 && e.trace[1] == NonceQuery(Backup)
  {
    var t2 := TransferSubmit(Backup, Auto, Transfer(address, amount), o.tier2);
    if o.tier2.Accepted? then Escalated(o.tier2.hash, queue, [t2])
    else
      var n := NonceTier(queue, address, amount, o);
      Escalated(n.res, n.queue, [t2] + ([NonceQuery(Backup)] + n.trace))
  }

  lemma BackupTiersClimbs(queue: set<string>, address: string, amount: int, o: ChainOracle)
    ensures var e := BackupTiers(queue, address, amount, o);
      && Climbs(Submissions(e.trace)) && RanksFrom(Submissions(e.trace), 2)
      && e.res == ResultHash(Submissions(e.trace))
      && Submissions(e.trace)[0] == TransferSubmit(Backup, Auto, Transfer(address, amount), o.tier2)
  {
    if o.tier2.Rejected? {
      BackupTiersClimbPastTierTwo(queue, address, amount, o);
    } else {
      SubmissionsOfOne(TransferSubmit(Backup, Auto, Transfer(address, amount), o.tier2));
    }
  }

  lemma BackupTiersClimbPastTierTwo(queue: set<string>, address: string, amount: int, o: ChainOracle)
    requires o.tier2.Rejected?
    ensures var e := BackupTiers(queue, address, amount, o);
      && Climbs(Submissions(e.trace)) && RanksFrom(Submissions(e.trace), 2)
      && e.res == ResultHash(Submissions(e.trace))
      && Submissions(e.trace)[0] == TransferSubmit(Backup, Auto, Transfer(address, amount), o.tier2)
  {
    var t2 := TransferSubmit(Backup, Auto, Transfer(address, amount), o.tier2);
    var n := NonceTier(queue, address, amount, o);
    NonceTierClimbs(queue, address, amount, o);
    SubmissionsCons(NonceQuery(Backup), n.trace);
    PrependRejected(t2, [NonceQuery(Backup)] + n.trace);
    assert BackupTiers(queue, address, amount, o)
        == Escalated(n.res, n.queue, [t2] + ([NonceQuery(Backup)] + n.trace));
  }

  /** The backup tiers ask for the backup account's nonce once exactly when Tier 2 threw, and
      add the address to the retry set once exactly when they reach Tier 4. */
  lemma BackupTiersCalls(queue: set<string>, address: string, amount: int, o: ChainOracle)
    ensures var e := BackupTiers(queue, address, amount, o);
      var queues := o.tier2.Rejected? && (o.nextNonce.None? || o.tier3.Rejected?);
      && CountOf(e.trace, NonceQuery(Backup)) == (if o.tier2.Rejected? then 1 else 0)
      && CountOf(e.trace, QueueAdd(address)) == (if queues then 1 else 0)
      && (!queues ==> e.queue == queue)
      && OnlyTierCalls(e.trace)
  {
    if o.tier2.Rejected? {
      var t2 := TransferSubmit(Backup, Auto, Transfer(address, amount), o.tier2);
      var n := NonceTier(queue, address, amount, o);
      NonceTierCalls(queue, address, amount, o);
      var tail := [NonceQuery(Backup)] + n.trace;
      CountOfCons(NonceQuery(Backup), n.trace, NonceQuery(Backup));
      CountOfCons(NonceQuery(Backup), n.trace, QueueAdd(address));
      CountOfCons(t2, tail, NonceQuery(Backup));
      CountOfCons(t2, tail, QueueAdd(address));
      OnlyTierCallsAppend([NonceQuery(Backup)], n.trace);
      OnlyTierCallsAppend([t2], tail);
    }
  }

  /** Tiers 1 to 4, run only after both guards passed and the node connection is up. Each tier
      runs only when the one before it threw; without a backup account, or when reconnecting
      for the backup tiers throws, a failed Tier 1 ends everything with an empty hash. */
  function Escalate(f: Faucet, address: string, amount: int, o: ChainOracle): (e: Escalated)
    ensures |e.trace| >= 1 && e.trace[0] == TransferSubmit(Primary, Auto, Transfer(address, amount), o.tier1)
    ensures o.tier1.Accepted? ==> e.res == o.tier1.hash && e.queue == f.queue && |e.trace| == 1
    ensures !TriesTierTwo(f, o) ==> e.queue == f.queue && |e.trace| == 1
    ensures !TriesTierTwo(f, o) && o.tier1.Rejected? ==> e.res == ""
    ensures TriesTierTwo(f, o) ==>
              |e.trace| >= 2 && e.trace[1] == TransferSubmit(Backup, Auto, Transfer(address, amount), o.tier2)
  {
    var t1 := TransferSubmit(Primary, Auto, Transfer(address, amount), o.tier1);
    if o.tier1.Accepted? then Escalated(o.tier1.hash, f.queue, [t1])
    else if f.backupAccount.None? || !o.backupApiReady then Escalated("", f.queue, [t1])
    else
      var b := BackupTiers(f.queue, address, amount, o);
      Escalated(b.res, b.queue, [t1] + b.trace)
  }

  /** Whether a call gets as far as Tier 4: Tier 1 threw, a backup account is loaded and
      reachable, Tier 2 threw, and either the nonce query or Tier 3 threw. */
  predicate ReachesQueue(f: Faucet, o: ChainOracle) {
    TriesTierTwo(f, o) && o.tier2.Rejected? && (o.nextNonce.None? || o.tier3.Rejected?)
  }

  /** Whether Tier 2 is tried: Tier 1 threw, and a backup account is loaded and reachable. */
  predicate TriesTierTwo(f: Faucet, o: ChainOracle) {
    o.tier1.Rejected? && f.backupAccount.Some? && o.backupApiReady
  }

  /** Whether Tier 3 is tried: Tier 2 was tried and threw, and the nonce query answered. */
  predicate TriesTierThree(f: Faucet, o: ChainOracle) {
    TriesTierTwo(f, o) && o.tier2.Rejected? && o.nextNonce.Some?
  }

  /** The submissions a call makes, tier by tier, each present exactly when its tier is tried:
      Tier 1 always, Tier 2 and Tier 3 as above, and the batch when the call reaches Tier 4 and
      the retry set then holds more than 20 members. */
  function TierSubmissions(f: Faucet, address: string, amount: int, o: ChainOracle): seq<Event> {
    var single := Transfer(address, amount);
    [TransferSubmit(Primary, Auto, single, o.tier1)]
      + ((if TriesTierTwo(f, o) then [TransferSubmit(Backup, Auto, single, o.tier2)] else [])
      + ((if TriesTierThree(f, o)
          then [TransferSubmit(Backup, Explicit(o.nextNonce.value), single, o.tier3)] else [])
      + (if ReachesQueue(f, o) && |f.queue + {address}| > BatchThreshold
         then [BatchSubmit(Primary, Auto, BatchOf(o.sample, amount), o.batch)] else [])))
  }

  /** The submissions of Tiers 3 and 4, once Tier 2 threw. */
  function LaterTries(queue: set<string>, address: string, amount: int, o: ChainOracle): seq<Event> {
    (if o.nextNonce.Some?
     then [TransferSubmit(Backup, Explicit(o.nextNonce.value), Transfer(address, amount), o.tier3)] else [])
    + (if (o.nextNonce.None? || o.tier3.Rejected?) && |queue + {address}| > BatchThreshold
       then [BatchSubmit(Primary, Auto, BatchOf(o.sample, amount), o.batch)] else [])
  }

  lemma QueueTierTries(queue: set<string>, address: string, amount: int, sample: seq<string>,
                       batch: Submission)
    ensures var q := QueueTier(queue, address, amount, sample, batch);
      var b := if |queue + {address}| > BatchThreshold
               then [BatchSubmit(Primary, Auto, BatchOf(sample, amount), batch)] else [];
      Submissions(q.trace) == b && q.res == FirstAcceptedHash(b)
  {
    if |queue + {address}| > BatchThreshold {
      QueueTierBatches(queue, address, amount, sample, batch);
      var b := [BatchSubmit(Primary, Auto, BatchOf(sample, amount), batch)];
      assert b[1..] == [];
    }
  }

  lemma NonceTierTries(queue: set<string>, address: string, amount: int, o: ChainOracle)
    ensures var n := NonceTier(queue, address, amount, o);
      var s := LaterTries(queue, address, amount, o);
      Submissions(n.trace) == s && n.res == FirstAcceptedHash(s)
  {
    var q := QueueTier(queue, address, amount, o.sample, o.batch);
    QueueTierTries(queue, address, amount, o.sample, o.batch);
    var s := LaterTries(queue, address, amount, o);
    if o.nextNonce.Some? {
      var t3 := TransferSubmit(Backup, Explicit(o.nextNonce.value), Transfer(address, amount), o.tier3);
      if o.tier3.Rejected? {
        SubmissionsCons(t3, q.trace);
        assert s == [t3] + Submissions(q.trace);
        assert s[1..] == Submissions(q.trace);
      } else {
        SubmissionsOfOne(t3);
        assert s == [t3];
      }
    } else {
      assert s == Submissions(q.trace);
    }
  }

  lemma BackupTiersTries(queue: set<string>, address: string, amount: int, o: ChainOracle)
    ensures var e := BackupTiers(queue, address, amount, o);
      var t2 := TransferSubmit(Backup, Auto, Transfer(address, amount), o.tier2);
      var s := [t2] + (if o.tier2.Rejected? then LaterTries(queue, address, amount, o) else []);
      Submissions(e.trace) == s && e.res == FirstAcceptedHash(s)
  {
    var t2 := TransferSubmit(Backup, Auto, Transfer(address, amount), o.tier2);
    if o.tier2.Rejected? {
      var n := NonceTier(queue, address, amount, o);
      NonceTierTries(queue, address, amount, o);
      SubmissionsCons(NonceQuery(Backup), n.trace);
      SubmissionsCons(t2, [NonceQuery(Backup)] + n.trace);
      var s := [t2] + LaterTries(queue, address, amount, o);
      assert s[1..] == LaterTries(queue, address, amount, o);
    } else {
      SubmissionsOfOne(t2);
      assert [t2] + [] == [t2];
    }
  }

  /** Each tier runs exactly when its predecessor threw: the submissions are those of the
      tiers tried, in tier order, and the hash is the first accepted one's, "" when none was. */
  lemma EscalateTriesEachTier(f: Faucet, address: string, amount: int, o: ChainOracle)
    ensures var e := Escalate(f, address, amount, o);
      && Submissions(e.trace) == TierSubmissions(f, address, amount, o)
      && e.res == FirstAcceptedHash(TierSubmissions(f, address, amount, o))
  {
    var t1 := TransferSubmit(Primary, Auto, Transfer(address, amount), o.tier1);
    var s := TierSubmissions(f, address, amount, o);
    if TriesTierTwo(f, o) {
      var b := BackupTiers(f.queue, address, amount, o);
      BackupTiersTries(f.queue, address, amount, o);
      SubmissionsCons(t1, b.trace);
      var rest := if o.tier2.Rejected? then LaterTries(f.queue, address, amount, o) else [];
      assert s[1..] == [TransferSubmit(Backup, Auto, Transfer(address, amount), o.tier2)] + rest;
      assert s == [t1] + s[1..];
    } else {
      SubmissionsOfOne(t1);
      assert s == [t1];
    }
  }

  lemma EscalateMakesOnlyTierCalls(f: Faucet, address: string, amount: int, o: ChainOracle)
    ensures OnlyTierCalls(Escalate(f, address, amount, o).trace)
  {
    if TriesTierTwo(f, o) {
      var t1 := TransferSubmit(Primary, Auto, Transfer(address, amount), o.tier1);
      BackupTiersCalls(f.queue, address, amount, o);
      OnlyTierCallsAppend([t1], BackupTiers(f.queue, address, amount, o).trace);
    }
  }

  /** The backup account's nonce is queried once when Tiers 1 and 2 both threw with a backup
      account present, and never otherwise. */
  lemma NonceQueriedOnlyAfterTwoFailures(f: Faucet, address: string, amount: int, o: ChainOracle)
    ensures CountOf(Escalate(f, address, amount, o).trace, NonceQuery(Backup)) ==
      (if o.tier1.Rejected? && f.backupAccount.Some? && o.backupApiReady && o.tier2.Rejected?
       then 1 else 0)
  {
    var t1 := TransferSubmit(Primary, Auto, Transfer(address, amount), o.tier1);
    CountOfCons(t1, [], NonceQuery(Backup));
    if o.tier1.Rejected? && f.backupAccount.Some? && o.backupApiReady {
      var b := BackupTiers(f.queue, address, amount, o);
      BackupTiersCalls(f.queue, address, amount, o);
      CountOfCons(t1, b.trace, NonceQuery(Backup));
    }
  }

  /** The address is added to the retry set once when the call reaches Tier 4, and never
      otherwise; short of Tier 4 the retry set is left as it was. */
  lemma QueuedOnlyAtTierFour(f: Faucet, address: string, amount: int, o: ChainOracle)
    ensures var e := Escalate(f, address, amount, o);
      && CountOf(e.trace, QueueAdd(address)) == (if ReachesQueue(f, o) then 1 else 0)
      && (!ReachesQueue(f, o) ==> e.queue == f.queue)
  {
    var t1 := TransferSubmit(Primary, Auto, Transfer(address, amount), o.tier1);
    CountOfCons(t1, [], QueueAdd(address));
    if o.tier1.Rejected? && f.backupAccount.Some? && o.backupApiReady {
      var b := BackupTiers(f.queue, address, amount, o);
      BackupTiersCalls(f.queue, address, amount, o);
      CountOfCons(t1, b.trace, QueueAdd(address));
    }
  }

  /** Whatever the tiers answer, the submissions of the trace start with Tier 1 and climb, and
      the response hash is the last submission's when it was accepted, else "". */
  lemma EscalationOrder(f: Faucet, address: string, amount: int, o: ChainOracle)
    ensures var e := Escalate(f, address, amount, o);
      && WellEscalated(Submissions(e.trace))
      && e.res == ResultHash(Submissions(e.trace))
      && Submissions(e.trace)[0] == TransferSubmit(Primary, Auto, Transfer(address, amount), o.tier1)
  {
    var t1 := TransferSubmit(Primary, Auto, Transfer(address, amount), o.tier1);
    var e := Escalate(f, address, amount, o);
    if o.tier1.Rejected? && f.backupAccount.Some? && o.backupApiReady {
      var b := BackupTiers(f.queue, address, amount, o);
      BackupTiersClimbs(f.queue, address, amount, o);
      PrependRejected(t1, b.trace);
      assert e == Escalated(b.res, b.queue, [t1] + b.trace);
    } else {
      assert e.trace == [t1];
      SubmissionsOfOne(t1);
    }
  }

  /** `sendTokens`: refuse when the primary account is not loaded or the cached balance does
      not exceed the amount; otherwise run the tiers and answer `{hash: res}`, whatever they
      threw; refresh the cached balance only after a success response. */
  function SendTokens(f: Faucet, address: string, amount: int, o: ChainOracle,
                      net: Networks.NetworkData, emptyHashIsSuccess: bool): (out: SendOutcome)
    ensures f.account.None? ==> out == SendOutcome(Error(AccountNotReady), f, [])
    ensures f.account.Some? && f.faucetBalance.Some? && amount >= f.faucetBalance.value ==>
              out == SendOutcome(Error(InsufficientBalanceMessage(amount, f.faucetBalance.value, net.currency)), f, [])
    ensures (f.account.Some? && !(f.faucetBalance.Some? && amount >= f.faucetBalance.value)
             && o.apiError.Some?) ==> out == SendOutcome(Error(ErrorText(o.apiError.value)), f, [])
    ensures out.response.Error? <==>
              || f.account.None?
              || (f.faucetBalance.Some? && amount >= f.faucetBalance.value)
              || o.apiError.Some?
    ensures out.response.Error? ==> out.trace == [] && out.faucet == f && out.response.error != ""
    ensures out.faucet.account == f.account && out.faucet.backupAccount == f.backupAccount
    ensures out.faucet.faucetBalance != f.faucetBalance ==> IsSuccess(out.response, emptyHashIsSuccess)
  {
    var faucetBalance := GetFaucetBalance(f);
    if f.account.None? then SendOutcome(Error(AccountNotReady), f, [])
    else if faucetBalance.Some? && amount >= faucetBalance.value then
      SendOutcome(Error(InsufficientBalanceMessage(amount, faucetBalance.value, net.currency)), f, [])
    else if o.apiError.Some? then SendOutcome(Error(ErrorText(o.apiError.value)), f, [])
    else
      var e := Escalate(f, address, amount, o);
      var result := Hash(e.res);
      var sent := f.(queue := e.queue);
      if IsSuccess(result, emptyHashIsSuccess) then
        var u := UpdateFaucetBalance(sent, o.refresh);
        SendOutcome(result, u.faucet, e.trace + u.trace)
      else SendOutcome(result, sent, e.trace)
  }

  // ---------------------------------------------------------------------------------------
  // Properties of sendTokens across its inputs

  /** Past the guards, `sendTokens` answers `{hash: res}` from the tiers and appends the
      balance refresh when that answer is a success. */
  lemma SendTokensRunsTiers(f: Faucet, address: string, amount: int, o: ChainOracle,
                            net: Networks.NetworkData, emptyHashIsSuccess: bool)
    requires f.account.Some? && o.apiError.None?
    requires f.faucetBalance.None? || amount < f.faucetBalance.value
    ensures var out := SendTokens(f, address, amount, o, net, emptyHashIsSuccess);
      var e := Escalate(f, address, amount, o);
      var sent := f.(queue := e.queue);
      var success := IsSuccess(out.response, emptyHashIsSuccess);
      && out.response == Hash(e.res)
      && out.faucet.queue == e.queue
      && out.faucet == (if success then UpdateFaucetBalance(sent, o.refresh).faucet else sent)
      && out.trace == e.trace + (if success then UpdateFaucetBalance(sent, o.refresh).trace else [])
      && (out.trace == e.trace || (IsSuccess(out.response, emptyHashIsSuccess) &&
            out.trace == e.trace + [FaucetBalanceQuery(f.account.value.address)]))
  {
  }

  /** Once both guards pass and the node answers, nothing a tier throws escapes: the response
      is `{hash}` with the accepted submission's hash, or "" when none was accepted, and the
      submissions climb the tiers from Tier 1 in order. */
  lemma SendTokensNeverThrowsPastGuards(f: Faucet, address: string, amount: int, o: ChainOracle,
                                        net: Networks.NetworkData, emptyHashIsSuccess: bool)
    requires f.account.Some? && o.apiError.None?
    requires f.faucetBalance.None? || amount < f.faucetBalance.value
    ensures var out := SendTokens(f, address, amount, o, net, emptyHashIsSuccess);
      && out.response == Hash(ResultHash(Submissions(out.trace)))
      && WellEscalated(Submissions(out.trace))
      && Submissions(out.trace)[0] == TransferSubmit(Primary, Auto, Transfer(address, amount), o.tier1)
  {
    var out := SendTokens(f, address, amount, o, net, emptyHashIsSuccess);
    var e := Escalate(f, address, amount, o);
    SendTokensRunsTiers(f, address, amount, o, net, emptyHashIsSuccess);
    EscalationOrder(f, address, amount, o);
    if out.trace != e.trace {
      var refresh := [FaucetBalanceQuery(f.account.value.address)];
      SubmissionsNone(refresh);
      SubmissionsAppend(e.trace, refresh);
    }
  }

  /** Past the guards, `sendTokens` makes exactly the submissions of the tiers it tries, in tier
      order, and answers with the hash of the first one the chain accepted, "" when none was. */
  lemma SendTokensAnswersFirstAcceptedTier(f: Faucet, address: string, amount: int, o: ChainOracle,
                                           net: Networks.NetworkData, emptyHashIsSuccess: bool)
    requires f.account.Some? && o.apiError.None?
    requires f.faucetBalance.None? || amount < f.faucetBalance.value
    ensures var out := SendTokens(f, address, amount, o, net, emptyHashIsSuccess);
      var s := TierSubmissions(f, address, amount, o);
      && Submissions(out.trace) == s
      && out.response == Hash(FirstAcceptedHash(s))
  {
    var out := SendTokens(f, address, amount, o, net, emptyHashIsSuccess);
    var e := Escalate(f, address, amount, o);
    SendTokensRunsTiers(f, address, amount, o, net, emptyHashIsSuccess);
    EscalateTriesEachTier(f, address, amount, o);
    if out.trace != e.trace {
      var refresh := [FaucetBalanceQuery(f.account.value.address)];
      SubmissionsNone(refresh);
      SubmissionsAppend(e.trace, refresh);
    }
  }

  /** Tier 1 throws and Tier 2 is accepted: the answer is Tier 2's hash, the only submissions
      are the two single transfers, no nonce is queried and the retry set is untouched. */
  lemma SecondTierSucceeds(f: Faucet, address: string, amount: int, o: ChainOracle,
                           net: Networks.NetworkData, emptyHashIsSuccess: bool)
    requires f.account.Some? && f.backupAccount.Some? && o.apiError.None? && o.backupApiReady
    requires f.faucetBalance.None? || amount < f.faucetBalance.value
    requires o.tier1.Rejected? && o.tier2.Accepted?
    ensures var out := SendTokens(f, address, amount, o, net, emptyHashIsSuccess);
      && out.response == Hash(o.tier2.hash)
      && out.faucet.queue == f.queue
      && CountOf(out.trace, NonceQuery(Backup)) == 0
      && Submissions(out.trace) == [
           TransferSubmit(Primary, Auto, Transfer(address, amount), o.tier1),
           TransferSubmit(Backup, Auto, Transfer(address, amount), o.tier2)]
  {
    var out := SendTokens(f, address, amount, o, net, emptyHashIsSuccess);
    var e := Escalate(f, address, amount, o);
    var t1 := TransferSubmit(Primary, Auto, Transfer(address, amount), o.tier1);
    var t2 := TransferSubmit(Backup, Auto, Transfer(address, amount), o.tier2);
    SendTokensAnswersFirstAcceptedTier(f, address, amount, o, net, emptyHashIsSuccess);
    assert TierSubmissions(f, address, amount, o) == [t1, t2];
    assert [t1, t2][1..] == [t2];
    QueuedOnlyAtTierFour(f, address, amount, o);
    NonceQueriedOnlyAfterTwoFailures(f, address, amount, o);
    if out.trace != e.trace {
      var refresh := [FaucetBalanceQuery(f.account.value.address)];
      CountOfAbsent(refresh, NonceQuery(Backup));
      CountOfAppend(e.trace, refresh, NonceQuery(Backup));
    }
  }

  /** The balance refresh is made once after a success response and never otherwise. After a
      success the snapshot holds the fetched balance when the query answers; after a failure
      response it is left as it was. */
  lemma RefreshExactlyOnSuccess(f: Faucet, address: string, amount: int, o: ChainOracle,
                                net: Networks.NetworkData, emptyHashIsSuccess: bool)
    requires f.account.Some? && f.account.value.address != ""
    ensures var out := SendTokens(f, address, amount, o, net, emptyHashIsSuccess);
      var success := IsSuccess(out.response, emptyHashIsSuccess);
      && CountOf(out.trace, FaucetBalanceQuery(f.account.value.address)) == (if success then 1 else 0)
      && (success && o.refresh.Some? ==> out.faucet.faucetBalance == o.refresh)
      && (!success ==> out.faucet.faucetBalance == f.faucetBalance)
  {
    var out := SendTokens(f, address, amount, o, net, emptyHashIsSuccess);
    var x := FaucetBalanceQuery(f.account.value.address);
    if out.response.Hash? {
      var e := Escalate(f, address, amount, o);
      SendTokensRunsTiers(f, address, amount, o, net, emptyHashIsSuccess);
      EscalateMakesOnlyTierCalls(f, address, amount, o);
      CountOfAbsent(e.trace, x);
      if IsSuccess(out.response, emptyHashIsSuccess) {
        assert out.trace == e.trace + [x];
        CountOfCons(x, [], x);
        CountOfAppend(e.trace, [x], x);
      }
    }
  }

  /** A call that reaches Tier 4 leaves the retry set exactly as Tier 4 leaves it. */
  lemma EscalateKeepsQueueTierSet(f: Faucet, address: string, amount: int, o: ChainOracle)
    requires ReachesQueue(f, o)
    ensures Escalate(f, address, amount, o).queue == QueueTier(f.queue, address, amount, o.sample, o.batch).queue
  {
    var q := QueueTier(f.queue, address, amount, o.sample, o.batch);
    assert NonceTier(f.queue, address, amount, o).queue == q.queue;
    assert BackupTiers(f.queue, address, amount, o).queue == q.queue;
  }

  /** A call that reaches Tier 4 with more than 20 members queued removes every sampled member
      before it submits the batch. */
  lemma EscalateRemovesBeforeBatch(f: Faucet, address: string, amount: int, o: ChainOracle)
    requires ReachesQueue(f, o) && |f.queue + {address}| > BatchThreshold
    ensures RemovesBeforeSubmitting(Escalate(f, address, amount, o).trace, o.sample,
                                    BatchSubmit(Primary, Auto, BatchOf(o.sample, amount), o.batch))
  {
    var submit := BatchSubmit(Primary, Auto, BatchOf(o.sample, amount), o.batch);
    var single := Transfer(address, amount);
    var q := QueueTier(f.queue, address, amount, o.sample, o.batch);
    var n := NonceTier(f.queue, address, amount, o);
    var b := BackupTiers(f.queue, address, amount, o);
    QueueTierRemovesBeforeBatch(f.queue, address, amount, o.sample, o.batch);
    if o.nextNonce.Some? {
      var t3 := TransferSubmit(Backup, Explicit(o.nextNonce.value), single, o.tier3);
      assert n.trace == [t3] + q.trace;
      RemovesBeforeSubmittingCons(t3, q.trace, o.sample, submit);
    } else {
      assert n.trace == q.trace;
    }
    RemovesBeforeSubmittingCons(NonceQuery(Backup), n.trace, o.sample, submit);
    var t2 := TransferSubmit(Backup, Auto, single, o.tier2);
    assert b.trace == [t2] + ([NonceQuery(Backup)] + n.trace);
    RemovesBeforeSubmittingCons(t2, [NonceQuery(Backup)] + n.trace, o.sample, submit);
    RemovesBeforeSubmittingCons(TransferSubmit(Primary, Auto, single, o.tier1), b.trace, o.sample, submit);
  }

  /** Tier 4's drain as `sendTokens` leaves it. A call that reaches Tier 4 ends with the retry
      set Tier 4 leaves. With more than 20 members queued, every sampled member is removed before
      the batch is submitted. When the sample is 20 distinct queued members, exactly those leave
      the set, whatever the batch answers. */
  lemma SendTokensDrainsQueue(f: Faucet, address: string, amount: int, o: ChainOracle,
                              net: Networks.NetworkData, emptyHashIsSuccess: bool)
    requires f.account.Some? && o.apiError.None?
    requires f.faucetBalance.None? || amount < f.faucetBalance.value
    requires ReachesQueue(f, o)
    ensures var out := SendTokens(f, address, amount, o, net, emptyHashIsSuccess);
      var added := f.queue + {address};
      && out.faucet.queue == QueueTier(f.queue, address, amount, o.sample, o.batch).queue
      && (|added| > BatchThreshold ==>
            RemovesBeforeSubmitting(out.trace, o.sample,
                                    BatchSubmit(Primary, Auto, BatchOf(o.sample, amount), o.batch)))
      && (|added| > BatchThreshold && IsSample(o.sample, added) ==>
            out.faucet.queue == added - Members(o.sample) && |out.faucet.queue| == |added| - BatchSize)
  {
    var out := SendTokens(f, address, amount, o, net, emptyHashIsSuccess);
    var e := Escalate(f, address, amount, o);
    var added := f.queue + {address};
    SendTokensRunsTiers(f, address, amount, o, net, emptyHashIsSuccess);
    EscalateKeepsQueueTierSet(f, address, amount, o);
    if |added| > BatchThreshold {
      var submit := BatchSubmit(Primary, Auto, BatchOf(o.sample, amount), o.batch);
      EscalateRemovesBeforeBatch(f, address, amount, o);
      if out.trace != e.trace {
        RemovesBeforeSubmittingAppend(e.trace, [FaucetBalanceQuery(f.account.value.address)], o.sample, submit);
      }
      if IsSample(o.sample, added) {
        QueueTierDrains(f.queue, address, amount, o.sample, o.batch);
      }
    }
  }

  /** A freshly constructed dispatcher has no balance snapshot, reads its balance as "0",
      does not refresh, and refuses to send without making any call. */
  lemma ConstructedRefuses(queue: set<string>, address: string, amount: int, o: ChainOracle,
                           net: Networks.NetworkData, emptyHashIsSuccess: bool, query: Option<nat>)
    ensures GetFaucetBalance(Constructed(queue)).None?
    ensures GetBalance(Constructed(queue), query) == "0"
    ensures UpdateFaucetBalance(Constructed(queue), query) == Refresh(Constructed(queue), [])
    ensures SendTokens(Constructed(queue), address, amount, o, net, emptyHashIsSuccess)
         == SendOutcome(Error(AccountNotReady), Constructed(queue), [])
  {
  }

  /** Without a backup account a failed Tier 1 ends the attempt: no backup submission, no nonce
      query, no queueing, and the response is `{hash: ""}`. */
  lemma NoBackupMeansNoFallback(f: Faucet, address: string, amount: int, o: ChainOracle,
                                net: Networks.NetworkData, emptyHashIsSuccess: bool)
    requires f.account.Some? && o.apiError.None?
    requires f.faucetBalance.None? || amount < f.faucetBalance.value
    requires f.backupAccount.None? && o.tier1.Rejected?
    ensures var out := SendTokens(f, address, amount, o, net, emptyHashIsSuccess);
      && out.response == Hash("")
      && out.faucet.queue == f.queue
      && Submissions(out.trace) == [TransferSubmit(Primary, Auto, Transfer(address, amount), o.tier1)]
      && NonceQuery(Backup) !in out.trace
      && QueueAdd(address) !in out.trace
  {
    var out := SendTokens(f, address, amount, o, net, emptyHashIsSuccess);
    SendTokensRunsTiers(f, address, amount, o, net, emptyHashIsSuccess);
    var t1 := TransferSubmit(Primary, Auto, Transfer(address, amount), o.tier1);
    var refresh := [FaucetBalanceQuery(f.account.value.address)];
    assert Escalate(f, address, amount, o) == Escalated("", f.queue, [t1]);
    SubmissionsOfOne(t1);
    SubmissionsNone(refresh);
    SubmissionsAppend([t1], refresh);
  }

  /** Every call `sendTokens` records is made by the dispatcher itself: a submission, a nonce
      query, a retry-set command or the balance refresh. None of the request handler's own
      calls appear. */
  lemma SendTokensCallsOnlyTheDispatcher(f: Faucet, address: string, amount: int, o: ChainOracle,
                                         net: Networks.NetworkData, emptyHashIsSuccess: bool)
    ensures OnlyDispatcherEvents(SendTokens(f, address, amount, o, net, emptyHashIsSuccess).trace)
  {
    var out := SendTokens(f, address, amount, o, net, emptyHashIsSuccess);
    if out.trace != [] {
      SendTokensRunsTiers(f, address, amount, o, net, emptyHashIsSuccess);
      var e := Escalate(f, address, amount, o);
      EscalateMakesOnlyTierCalls(f, address, amount, o);
      assert OnlyDispatcherEvents(e.trace);
      if out.trace != e.trace {
        OnlyDispatcherAppend(e.trace, [FaucetBalanceQuery(f.account.value.address)]);
      }
    }
  }

  lemma EscalateReachesThirdTier(f: Faucet, address: string, amount: int, o: ChainOracle)
    requires f.backupAccount.Some? && o.backupApiReady
    requires o.tier1.Rejected? && o.tier2.Rejected? && o.nextNonce.Some? && o.tier3.Accepted?
    ensures Escalate(f, address, amount, o) == Escalated(o.tier3.hash, f.queue, [
      TransferSubmit(Primary, Auto, Transfer(address, amount), o.tier1),
      TransferSubmit(Backup, Auto, Transfer(address, amount), o.tier2),
      NonceQuery(Backup),
      TransferSubmit(Backup, Explicit(o.nextNonce.value), Transfer(address, amount), o.tier3)])
  {
    var t2 := TransferSubmit(Backup, Auto, Transfer(address, amount), o.tier2);
    var t3 := TransferSubmit(Backup, Explicit(o.nextNonce.value), Transfer(address, amount), o.tier3);
    assert NonceTier(f.queue, address, amount, o) == Escalated(o.tier3.hash, f.queue, [t3]);
    assert BackupTiers(f.queue, address, amount, o)
        == Escalated(o.tier3.hash, f.queue, [t2, NonceQuery(Backup)] + [t3]);
  }

  lemma SubmissionsOfThreeTries(t1: Event, t2: Event, t3: Event, refresh: seq<Event>)
    requires IsSubmission(t1) && IsSubmission(t2) && IsSubmission(t3)
    requires refresh == [] || (|refresh| == 1 && refresh[0].FaucetBalanceQuery?)
    ensures Submissions([t1, t2, NonceQuery(Backup), t3] + refresh) == [t1, t2, t3]
  {
    var tried := [t1, t2, NonceQuery(Backup), t3];
    SubmissionsOfOne(t1);
    SubmissionsOfOne(t2);
    SubmissionsOfOne(t3);
    SubmissionsOfOne(NonceQuery(Backup));
    assert tried == [t1] + [t2] + [NonceQuery(Backup)] + [t3];
    SubmissionsAppend([t1], [t2]);
    SubmissionsAppend([t1] + [t2], [NonceQuery(Backup)]);
    SubmissionsAppend([t1] + [t2] + [NonceQuery(Backup)], [t3]);
    SubmissionsNone(refresh);
    SubmissionsAppend(tried, refresh);
  }

  /** Tiers 1 and 2 fail and Tier 3 succeeds: exactly one nonce query, and the accepted
      submission is the backup account's with the queried nonce. */
  lemma ThirdTierSucceeds(f: Faucet, address: string, amount: int, o: ChainOracle,
                          net: Networks.NetworkData, emptyHashIsSuccess: bool)
    requires f.account.Some? && f.backupAccount.Some? && o.apiError.None? && o.backupApiReady
    requires f.faucetBalance.None? || amount < f.faucetBalance.value
    requires o.tier1.Rejected? && o.tier2.Rejected? && o.nextNonce.Some? && o.tier3.Accepted?
    ensures var out := SendTokens(f, address, amount, o, net, emptyHashIsSuccess);
      && out.response == Hash(o.tier3.hash)
      && CountOf(out.trace, NonceQuery(Backup)) == 1
      && out.faucet.queue == f.queue
      && Submissions(out.trace) == [
           TransferSubmit(Primary, Auto, Transfer(address, amount), o.tier1),
           TransferSubmit(Backup, Auto, Transfer(address, amount), o.tier2),
           TransferSubmit(Backup, Explicit(o.nextNonce.value), Transfer(address, amount), o.tier3)]
  {
    var out := SendTokens(f, address, amount, o, net, emptyHashIsSuccess);
    SendTokensRunsTiers(f, address, amount, o, net, emptyHashIsSuccess);
    EscalateReachesThirdTier(f, address, amount, o);
    var t1 := TransferSubmit(Primary, Auto, Transfer(address, amount), o.tier1);
    var t2 := TransferSubmit(Backup, Auto, Transfer(address, amount), o.tier2);
    var t3 := TransferSubmit(Backup, Explicit(o.nextNonce.value), Transfer(address, amount), o.tier3);
    var tried := [t1, t2, NonceQuery(Backup), t3];
    var refresh := if out.trace == tried then [] else [FaucetBalanceQuery(f.account.value.address)];
    assert out.trace == tried + refresh;
    SubmissionsOfThreeTries(t1, t2, t3, refresh);
    NonceQueriedOnlyAfterTwoFailures(f, address, amount, o);
    CountOfAbsent(refresh, NonceQuery(Backup));
    CountOfAppend(tried, refresh, NonceQuery(Backup));
  }

  /** Tiers 1 to 3 fail and the retry set holds at most 20 members once the address is in:
      the address waits in the set, the only submissions are the single transfers of Tiers 1
      to 3, and the hash is empty. */
  lemma EscalateQueuesWithoutBatch(f: Faucet, address: string, amount: int, o: ChainOracle)
    requires f.backupAccount.Some? && o.backupApiReady
    requires o.tier1.Rejected? && o.tier2.Rejected? && (o.nextNonce.None? || o.tier3.Rejected?)
    requires |f.queue + {address}| <= BatchThreshold
    ensures var e := Escalate(f, address, amount, o);
      && e.res == "" && e.queue == f.queue + {address}
      && Submissions(e.trace) == SingleTries(address, amount, o)
  {
    var single := Transfer(address, amount);
    var t1 := TransferSubmit(Primary, Auto, single, o.tier1);
    var t2 := TransferSubmit(Backup, Auto, single, o.tier2);
    var q := QueueTier(f.queue, address, amount, o.sample, o.batch);
    var n := NonceTier(f.queue, address, amount, o);
    var tail := if o.nextNonce.None? then [] else [TransferSubmit(Backup, Explicit(o.nextNonce.value), single, o.tier3)];
    assert n.res == "" && n.queue == f.queue + {address} && Submissions(n.trace) == tail by {
      if o.nextNonce.Some? {
        SubmissionsCons(tail[0], q.trace);
        assert tail + [] == tail;
      }
    }
    var b := BackupTiers(f.queue, address, amount, o);
    assert b.res == "" && b.queue == f.queue + {address} && Submissions(b.trace) == [t2] + tail by {
      SubmissionsCons(t2, [NonceQuery(Backup)] + n.trace);
      SubmissionsCons(NonceQuery(Backup), n.trace);
    }
    SubmissionsCons(t1, b.trace);
  }

  /** The single-transfer submissions of Tiers 1 to 3 when all three are tried (Tier 3 only
      when the nonce query answered), in the order they are made. */
  function SingleTries(address: string, amount: int, o: ChainOracle): (s: seq<Event>)
  {
    var single := Transfer(address, amount);
    [TransferSubmit(Primary, Auto, single, o.tier1)]
      + ([TransferSubmit(Backup, Auto, single, o.tier2)]
      + (if o.nextNonce.None? then [] else [TransferSubmit(Backup, Explicit(o.nextNonce.value), single, o.tier3)]))
  }

  /** Tier 4 on a set that holds exactly 20 members once the address is in: the address stays
      queued, no batch is built, and the answer is the empty hash. */
  lemma TwentyQueuedIsNotABatch(f: Faucet, address: string, amount: int, o: ChainOracle,
                                net: Networks.NetworkData, emptyHashIsSuccess: bool)
    requires f.account.Some? && f.backupAccount.Some? && o.apiError.None? && o.backupApiReady
    requires f.faucetBalance.None? || amount < f.faucetBalance.value
    requires o.tier1.Rejected? && o.tier2.Rejected? && (o.nextNonce.None? || o.tier3.Rejected?)
    requires |f.queue + {address}| == BatchThreshold
    ensures var out := SendTokens(f, address, amount, o, net, emptyHashIsSuccess);
      && out.faucet.queue == f.queue + {address}
      && CountOf(out.trace, QueueAdd(address)) == 1
      && Submissions(out.trace) == SingleTries(address, amount, o)
      && out.response == Hash("")
  {
    var out := SendTokens(f, address, amount, o, net, emptyHashIsSuccess);
    SendTokensRunsTiers(f, address, amount, o, net, emptyHashIsSuccess);
    EscalateQueuesWithoutBatch(f, address, amount, o);
    QueuedOnlyAtTierFour(f, address, amount, o);
    var e := Escalate(f, address, amount, o);
    if out.trace != e.trace {
      var refresh := [FaucetBalanceQuery(f.account.value.address)];
      SubmissionsNone(refresh);
      SubmissionsAppend(e.trace, refresh);
      CountOfAppend(e.trace, refresh, QueueAdd(address));
    }
  }
}

=== FILE: text.dfy ===
/** String helpers the faucet relies on: decimal rendering of big integers and `Array.join`. */
module Text {

  predicate IsDigit(c: char) {
    '0' <= c <= '9'
  }

  predicate AllDigits(s: string) {
    forall i :: 0 <= i < |s| ==> IsDigit(s[i])
  }

  function DigitChar(d: nat): (c: char)
    requires d < 10
    ensures IsDigit(c)
    ensures c as int - '0' as int == d
  {
    ('0' as int + d) as char
  }

  function DigitValue(c: char): (d: nat)
    requires IsDigit(c)
    ensures d < 10
  {
    c as int - '0' as int
  }

  /** The decimal text of `n`, as `toString()` renders a non-negative bigint. */
  function NatToString(n: nat): (s: string)
    ensures |s| >= 1
    ensures AllDigits(s)
    ensures n > 0 ==> s[0] != '0'
    decreases n
  {
    if n < 10 then [DigitChar(n)] else NatToString(n / 10) + [DigitChar(n % 10)]
  }

  /** The value of a string of decimal digits (the empty string reads as 0). */
  function ParseNat(s: string): nat
    requires AllDigits(s)
    decreases |s|
  {
    if |s| == 0 then 0 else ParseNat(s[..|s| - 1]) * 10 + DigitValue(s[|s| - 1])
  }

  /** Reading back the decimal text of `n` gives `n`. */
  lemma {:induction false} ParseNatToString(n: nat)
    ensures ParseNat(NatToString(n)) == n
    decreases n
  {
    var s := NatToString(n);
    if n < 10 {
      assert s[..|s| - 1] == [];
    } else {
      var prefix := NatToString(n / 10);
      assert s == prefix + [DigitChar(n % 10)];
      assert s[..|s| - 1] == prefix;
      ParseNatToString(n / 10);
    }
  }

  /** The parts joined with `sep` between neighbours, as `Array.prototype.join` does. */
  function Join(parts: seq<string>, sep: string): string
    decreases |parts|
  {
    if |parts| == 0 then ""
    else if |parts| == 1 then parts[0]
    else parts[0] + sep + Join(parts[1..], sep)
  }

  /** `needle` appears in `hay` starting at position `i`. */
  ghost predicate OccursAt(needle: string, hay: string, i: nat) {
    i + |needle| <= |hay| && hay[i..i + |needle|] == needle
  }

  ghost predicate Occurs(needle: string, hay: string) {
    exists i: nat :: OccursAt(needle, hay, i)
  }

  /** An occurrence survives putting text before and after the string it is in. */
  lemma OccursInContext(needle: string, before: string, hay: string, after: string)
    requires Occurs(needle, hay)
    ensures Occurs(needle, before + hay + after)
  {
    var i: nat :| OccursAt(needle, hay, i);
    var whole := before + hay + after;
    var j := |before| + i;
    assert whole[j..j + |needle|] == hay[i..i + |needle|];
    assert OccursAt(needle, whole, j);
  }

  /** Every part appears in the joined text. */
  lemma {:induction false} JoinListsEveryPart(parts: seq<string>, sep: string, k: nat)
    requires k < |parts|
    ensures Occurs(parts[k], Join(parts, sep))
    decreases |parts|
  {
    if |parts| == 1 {
      assert OccursAt(parts[0], Join(parts, sep), 0);
    } else if k == 0 {
      var whole := Join(parts, sep);
      assert whole == parts[0] + (sep + Join(parts[1..], sep));
      assert whole[0..|parts[0]|] == parts[0];
      assert OccursAt(parts[0], whole, 0);
    } else {
      JoinListsEveryPart(parts[1..], sep, k - 1);
      assert parts[1..][k - 1] == parts[k];
      OccursInContext(parts[k], parts[0] + sep, Join(parts[1..], sep), "");
      assert parts[0] + sep + Join(parts[1..], sep) + "" == Join(parts, sep);
    }
  }
}

=== FILE: types.dfy ===
/** Values shared by the request handler and the transfer dispatcher: responses, quota keys
    and the trace of external calls a request produces. */
module Types {

  /** `{hash}` or `{error}`: the only thing a caller of the faucet ever sees. */
  datatype DripResponse = Hash(hash: string) | Error(error: string)

  /** Whether a response counts as a successful drip. The guard that decides this is not part
      of this model; it is taken to accept the hash variant, and `emptyHashIsSuccess` says
      whether it also accepts `{hash: ""}`. */
  predicate IsSuccess(r: DripResponse, emptyHashIsSuccess: bool) {
    r.Hash? && (r.hash != "" || emptyHashIsSuccess)
  }

  /** The identity the one-drip-per-day rule is keyed by. */
  datatype QuotaKey = AddressKey(addr: string) | SenderAddressKey(username: string, addr: string)

  /** The faucet's two signing accounts. */
  datatype Signer = Primary | Backup

  /** `nonce: -1` lets the node pick the next nonce; `Explicit` is one queried from the chain. */
  datatype Nonce = Auto | Explicit(index: nat)

  /** One `transferKeepAlive(dest, amount)` call. */
  datatype Transfer = Transfer(dest: string, amount: int)

  /** What the chain answered to a signed submission: its hash in hex, or a thrown error. */
  datatype Submission = Accepted(hash: string) | Rejected

  /** One call to an external collaborator (captcha, quota store, chain, Redis, metrics),
      recorded in the order it is issued. */
  datatype Event =
    | TotalRequestsInc
    | CaptchaValidate(token: string)
    | HasDrippedToday(key: QuotaKey)
    | AccountQuery(address: string)
    | SendTokensCall(address: string, amount: int)
    | TransferSubmit(signer: Signer, nonce: Nonce, transfer: Transfer, outcome: Submission)
    | NonceQuery(account: Signer)
    | QueueAdd(member: string)
    | QueueCard
    | QueueSample(count: nat)
    | QueueRemove(member: string)
    | BatchSubmit(signer: Signer, nonce: Nonce, transfers: seq<Transfer>, outcome: Submission)
    | FaucetBalanceQuery(address: string)
    | SuccessfulRequestsInc
    | SaveDrip(key: QuotaKey)
}

=== FILE: wrappers.dfy ===
/** Option and Result: the shapes of `T | undefined` values and of calls that may throw. */
module Wrappers {

  /** `Some(v)` for a defined value, `None` for `undefined`. */
  datatype Option<+T> = None | Some(value: T)

  /** The outcome of an operation that either returns a value or throws an error. */
  datatype Result<+R, +E> = Success(value: R) | Failure(error: E)
}
